=== FILE: README.md ===
# SportIQ client services in Dafny

This project models the three service modules of the SportIQ mobile client
that sit between the screens and the backend:

- **StatsService**: `generateStat` picks a backend route and an HTTP verb for
  a stat type, sends the athlete and stat type as a JSON body, and re-keys the
  reply under the stat type. `getAthleteStats` reads all stats and maps 404 to
  `null`. `getUnitForStat` maps stat ids to units. `getStatDefinitions` and
  `getStatDefinitionById` hold the stat catalogue, and a lookup that falls
  back to its first entry.
- **PerformanceService**: loading and saving an athlete's basic performance
  record through the request layer (a create is a POST, an update a PUT).
  `isValidNumber` validates trial values. `calculateAverage` drops blank and
  non-numeric trial entries and averages the rest, or returns `null`. It also
  covers the sample history and the catalogue of eight performance
  measurements.
- **ApiService**: the authenticated request layer. It normalises the URL,
  merges the JSON content type with the caller's headers, and adds a bearer
  token from AsyncStorage. On a 401 it refreshes the token once and retries
  once. `handleResponse` then classifies the reply.

Effects are inputs. Each `fetch` the code may issue is represented by its
outcome (`Http.FetchOutcome`: rejected, or a response with status, parsed
JSON or none, and text). `request` receives the outcomes of its first
attempt, the refresh call and the retry (`ApiService.Env`). AsyncStorage is
a value (`ApiService.Storage`) with flags saying whether reads and writes
succeed.

JavaScript's number conversions are modelled on exact reals with the IEEE
special values (`JsNumber.Num`). `parseFloat` reads the longest decimal
prefix after leading whitespace. `Number()`, as `isFinite` applies it,
needs the whole trimmed string to be one literal, allows `0x`/`0o`/`0b`
literals, and reads blank as 0.

Module layout:

| file | module | content |
|---|---|---|
| wrappers.dfy | Wrappers | `Option`, `Result` |
| js_text.dfy | JsText | whitespace, `trim`, decimal digits, `${n}` for a status code |
| js_number.dfy | JsNumber | `parseFloat`, `Number()`, `isFinite`, `+` and division by a count |
| json.dfy | JsonData | parsed JSON, truthiness, property reads, `\|\|` |
| http.dfy | Http | base URL, requests, responses, fetch outcomes, errors |
| api_service.dfy | ApiService | ApiService.js |
| stats_service.dfy | StatsService | StatsService.js |
| performance_service.dfy | PerformanceService | PerformanceService.js |

Behaviours of the code that the model makes explicit:

- A non-ok reply always fails with `API error: <status>`. The server's
  `message` is thrown inside the try block and replaced in its catch block
  (`ApiService.ServerMessageDropped`).
- `refreshToken` does not check the status of the refresh reply. Any reply
  whose JSON carries an `accessToken` replaces the stored token
  (`ApiService.RefreshIgnoresStatus`).
- The verb of `generateStat` depends only on whether the type is `generic`.
  An unknown stat type is therefore sent with PUT to the fallback route;
  only `generic` is sent there with POST (`StatsService.VerbChoice`).
- `isValidNumber` and `calculateAverage` disagree on which text is a number.
  `calculateAverage` keeps `12abc` as 12, and `isValidNumber` rejects it
  (`PerformanceService.TrailingTextKept`). `isValidNumber` accepts `0x10`,
  which `calculateAverage` reads as 0
  (`PerformanceService.HexValidButParsedAsZero`,
  `PerformanceService.HexAveragedAsZero`).
- The catch block around `getAccessToken` in `request` is unreachable,
  because `getAccessToken` already turns a failed storage read into `null`
  (`ApiService.AccessToken`, `ApiService.TokenReadFailureDoesNotAbort`).

## Model

| member | source | states |
|---|---|---|
| StatsService.Segment | sportiq/app/services/StatsService.js:46-79 | a dedicated route segment never contains `/` |
| StatsService.RoutedTypesExactly | sportiq/app/services/StatsService.js:46-84 | exactly the eleven switch cases have a dedicated route; everything else takes the default branch |
| StatsService.SegmentRoundTrip | sportiq/app/services/StatsService.js:46-79 | the segment of a routed stat type maps back to that type, so the table is invertible |
| StatsService.SegmentInjective | sportiq/app/services/StatsService.js:46-79 | no two stat types share a route segment |
| StatsService.EndpointInjective | sportiq/app/services/StatsService.js:46-79 | distinct (athlete, routed type) pairs never produce the same URL `<base>/<segment>/<athleteId>` |
| StatsService.FallbackEndpoint | sportiq/app/services/StatsService.js:80-83 | every type without a route goes to `<base>/athlete-stat-crud/generate`, whatever the athlete id |
| StatsService.RoutedEndpointNotGeneric | sportiq/app/services/StatsService.js:46-83 | no dedicated endpoint, for any athlete id, coincides with the fallback endpoint |
| StatsService.StatRequest | sportiq/app/services/StatsService.js:88-105 | the request always has a verb, the JSON content type and a body that is exactly `{athlete_id, stat_type}` with the given values |
| StatsService.Endpoint | sportiq/app/services/StatsService.js:46-79 | every URL is under `<base>/`, and a dedicated route ends with the athlete id |
| StatsService.StatVerb | sportiq/app/services/StatsService.js:89 | the verb is POST or PUT, and POST is only used for a type without a dedicated route |
| StatsService.VerbChoice | sportiq/app/services/StatsService.js:89 | the verb is POST exactly for `generic` and PUT for every other type; `generic` itself uses the fallback URL |
| StatsService.ShapeResult | sportiq/app/services/StatsService.js:115-117 | a null result throws on reading `value`; any other result gives an object whose only key is the stat type |
| StatsService.ShapeFirstTruthy | sportiq/app/services/StatsService.js:116 | the stored value is the first truthy of `result.value`, `result.data`, `result[statType]`, else the result itself |
| StatsService.ShapedValueOrigin | sportiq/app/services/StatsService.js:116 | the stored value is the result or one of its own fields, and it is truthy whenever the result is |
| StatsService.GenerateStat | sportiq/app/services/StatsService.js:105-122 | a rejected fetch is rethrown; a non-ok status fails with `Failed to generate stat (<status>)`; a non-JSON body fails; an ok JSON reply gives exactly its reshaping, and nothing else succeeds |
| StatsService.AthleteStats | sportiq/app/services/StatsService.js:18-33 | a rejected fetch is rethrown; an ok reply resolves to its JSON, or fails if the body is not JSON; 404 yields null; other non-ok statuses fail with `Server responded with status <status>`; a non-null success is the ok reply's JSON |
| StatsService.AthleteStatsRequest | sportiq/app/services/StatsService.js:20 | a bare GET with no options, headers or body, whose URL is the backend base, then `/athlete-stat-crud/`, then the athlete id |
| StatsService.UnitFor | sportiq/app/services/StatsService.js:130-151 | every stat with a unit has a dedicated route, and somatotype has none |
| StatsService.UnitsExactly | sportiq/app/services/StatsService.js:130-151 | exactly the eight listed ids have a non-empty unit |
| StatsService.UnitsCoverDefinitions | sportiq/app/services/StatsService.js:130-226 | every id with a unit is a defined stat; the defined stats without one are exactly somatotype, neuromuscular_indexes and power_index |
| StatsService.DefinitionsDistinct | sportiq/app/services/StatsService.js:157-226 | the catalogue has eleven entries with pairwise-distinct ids |
| StatsService.DefinitionIdsAreRoutedTypes | sportiq/app/services/StatsService.js:157-226 | an id is in the catalogue exactly when its stat type has a dedicated route |
| StatsService.Find | sportiq/app/services/StatsService.js:234 | `find` returns nothing exactly when no id matches, and otherwise the first definition with the id |
| StatsService.DefinitionById | sportiq/app/services/StatsService.js:233-235 | the result is always a catalogue entry: the one with the id when it exists, else the first entry (somatotype) |
| ApiService.UrlNormalisation | sportiq/app/services/ApiService.js:15 | the URL is base, one `/`, and the endpoint without its leading `/`; so `x` and `/x` give the same URL |
| ApiService.HeaderPolicy | sportiq/app/services/ApiService.js:18-34 | the header keys are the caller's plus Content-Type, plus Authorization when authorised; caller headers override the JSON default; a truthy stored token overrides the caller's Authorization exactly when the call requires authentication |
| ApiService.AccessToken | sportiq/app/services/ApiService.js:99-106 | a token is read exactly when the store is readable and holds `accessToken`, and it is the stored value; a failed read yields null |
| ApiService.TokenReadFailureDoesNotAbort | sportiq/app/services/ApiService.js:24-44 | with an unreadable store the request is still sent, with the merged caller headers and no stored token added |
| ApiService.Send | sportiq/app/services/ApiService.js:14-61 | one to three requests are sent, and the first is the URL, verb, merged headers and body of the call; a rejected first fetch sends nothing more, leaves the store alone and rejects with the same network failure (the resolved cases are stated by `ApiService.RetryRule` and `ApiService.RefreshAttempted`) |
| ApiService.RetryRule | sportiq/app/services/ApiService.js:46-56 | more than one request only after a 401 on an authenticated call, then the refresh; a third request is sent only when the refresh returned a token, is the first one with `Bearer <that token>`, leaves the store as the refresh left it, and its reply decides the result; otherwise the first reply is classified and the store is unchanged |
| ApiService.RefreshAttempted | sportiq/app/services/ApiService.js:47-56 | after a 401 on an authenticated call the refresh's requests follow the first, a retry is added exactly when it yields a token, and without a token the result is `API error: 401` |
| ApiService.HandleResponse | sportiq/app/services/ApiService.js:68-93 | 204 resolves to null; every non-ok status fails with `API error: <status>`; an ok reply resolves to its JSON, or to its text when it is not JSON |
| ApiService.FailuresAreClassified | sportiq/app/services/ApiService.js:43-93 | every failure of `request` is either a rejected fetch or `API error: <status>` for a non-ok status |
| ApiService.ServerMessageDropped | sportiq/app/services/ApiService.js:79-88 | a 400 reply with message `Invalid credentials` throws that message in the try block but reaches the caller as `API error: 400` |
| ApiService.RefreshToken | sportiq/app/services/ApiService.js:112-137 | no request without a stored refresh token; otherwise one POST with `{refreshToken}`; a token is returned exactly when the reply carries a truthy accessToken and the store accepts it, and only then is the store changed |
| ApiService.RefreshIgnoresStatus | sportiq/app/services/ApiService.js:119-131 | a 500 reply that carries an accessToken still replaces the stored token |
| ApiService.WrapperContracts | sportiq/app/services/ApiService.js:146-194 | the wrappers fix the verb, send `data` (default `{}`) only for post and put, pass no headers, and require authentication unless told otherwise |
| PerformanceService.SaveDispatch | sportiq/app/services/PerformanceService.js:25-31 | an update is a PUT and anything else a POST, authenticated, with the data unchanged; a missing flag means create |
| PerformanceService.Save | sportiq/app/services/PerformanceService.js:25-36 | the first request uses PUT for an update and POST otherwise, and carries the data unchanged |
| PerformanceService.SaveOutcome | sportiq/app/services/PerformanceService.js:25-36 | a save goes to `<base>/basic-performance-crud` and resolves or rejects exactly as the request does: a rejected fetch rethrown, a non-401 reply classified, and after a 401 the retry's outcome or `API error: 401` |
| PerformanceService.SaveUrl | sportiq/app/services/PerformanceService.js:28-30 | both kinds of save go to `<base>/basic-performance-crud` |
| PerformanceService.MeasurementsCallShape | sportiq/app/services/PerformanceService.js:15-17 | loading is an authenticated GET without a body |
| PerformanceService.Measurements | sportiq/app/services/PerformanceService.js:15-22 | the first request is a GET without a body |
| PerformanceService.MeasurementsOutcome | sportiq/app/services/PerformanceService.js:15-22 | loading reads `<base>/basic-performance-crud/<athleteId>` and resolves or rejects exactly as the request does: a rejected fetch rethrown, a non-401 reply classified, and after a 401 the retry's outcome or `API error: 401` |
| PerformanceService.MeasurementsUrl | sportiq/app/services/PerformanceService.js:17 | loading reads `<base>/basic-performance-crud/<athleteId>` |
| PerformanceService.IsValidNumber | sportiq/app/services/PerformanceService.js:39-45 | only numbers and strings can be valid; null, undefined and booleans never are |
| PerformanceService.IsValidNumberMeaning | sportiq/app/services/PerformanceService.js:39-45 | false for null and undefined; true exactly for finite numbers and for strings both `parseFloat` and `Number()` read as numbers; a valid value always parses to a finite number |
| JsNumber.ParseFloatFiniteWhenNumberFinite | sportiq/app/services/PerformanceService.js:43-44 | when `parseFloat` finds a number and `Number()` is finite, the `parseFloat` value is finite too |
| JsNumber.InfinityNotFiniteNumber | sportiq/app/services/PerformanceService.js:43-44 | when `parseFloat` reads an infinity, `Number()` of the same string is not finite |
| PerformanceService.KeptIffParses | sportiq/app/services/PerformanceService.js:51 | an entry passes the filter exactly when `parseFloat` finds a number; the blank tests are subsumed |
| JsText.TrimEmptyIffAllSpace | sportiq/app/services/PerformanceService.js:51 | `trim()` gives the empty string exactly for an all-whitespace string |
| JsNumber.LeadingSpaceIgnored | sportiq/app/services/PerformanceService.js:43-44 | leading whitespace changes neither `parseFloat` nor `Number()` |
| JsNumber.BlankConversions | sportiq/app/services/PerformanceService.js:43-44 | a blank string is zero to `Number()` but NaN to `parseFloat` |
| JsNumber.ParseFloatOfSpace | sportiq/app/services/PerformanceService.js:51 | whitespace alone is NaN to `parseFloat` |
| PerformanceService.ValidEntriesAreKept | sportiq/app/services/PerformanceService.js:39-52 | every string `isValidNumber` accepts passes the averaging filter |
| PerformanceService.TrailingTextKept | sportiq/app/services/PerformanceService.js:39-52 | `12abc` is kept by the filter as 12 but rejected by `isValidNumber` |
| PerformanceService.HexValidButParsedAsZero | sportiq/app/services/PerformanceService.js:43-44 | `0x10` passes `isValidNumber` (`Number()` reads 16) while `parseFloat` reads 0 |
| PerformanceService.HexAveragedAsZero | sportiq/app/services/PerformanceService.js:50-57 | the average of the single entry `0x10` is 0 |
| PerformanceService.KeptValuesEmpty | sportiq/app/services/PerformanceService.js:50-54 | no value survives the filter exactly when no entry passes it |
| PerformanceService.KeptValuesAppend | sportiq/app/services/PerformanceService.js:50-52 | filtering and parsing work entry by entry: they distribute over concatenation |
| PerformanceService.KeptValuesAreNumbers | sportiq/app/services/PerformanceService.js:50-52 | no kept value is NaN |
| PerformanceService.DroppedEntryIgnored | sportiq/app/services/PerformanceService.js:48-58 | inserting an entry the filter drops anywhere leaves the average unchanged |
| PerformanceService.CalculateAverage | sportiq/app/services/PerformanceService.js:48-58 | the result is null exactly when no entry passes the filter |
| PerformanceService.Average | sportiq/app/services/PerformanceService.js:54-57 | there is no average exactly for no values |
| PerformanceService.SumIsRealSum | sportiq/app/services/PerformanceService.js:56 | over finite values the left fold of `reduce` starting at 0 is finite and equals the exact right-fold sum |
| PerformanceService.AverageIsMean | sportiq/app/services/PerformanceService.js:56-57 | for finite values the average is their exact sum divided by their count |
| PerformanceService.CalculateAverageIsMean | sportiq/app/services/PerformanceService.js:48-58 | when some entry is kept and every kept value is finite, the result is the exact sum of the kept values divided by how many there are |
| PerformanceService.AverageOfOne | sportiq/app/services/PerformanceService.js:56-57 | a single value is its own average |
| PerformanceService.AverageOfKeptEntry | sportiq/app/services/PerformanceService.js:48-58 | one kept entry averages to its `parseFloat` value |
| PerformanceService.AverageOfDecimal | sportiq/app/services/PerformanceService.js:48-58 | one entry holding the decimal form of `n` averages to `n` |
| JsNumber.ParseFloatOfDecimal | sportiq/app/services/PerformanceService.js:52 | `parseFloat` reads back the decimal form of every natural number |
| PerformanceService.SumBounds | sportiq/app/services/PerformanceService.js:56 | the sum of finite values is finite and lies between count times any lower and upper bound |
| PerformanceService.AverageWithinBounds | sportiq/app/services/PerformanceService.js:56-57 | the average of finite values is finite and lies within any bounds that hold for every value, hence between their minimum and maximum |
| JsNumber.Add | sportiq/app/services/PerformanceService.js:56 | `+` on numbers: finite operands give their sum; NaN exactly when an operand is NaN or the infinities are opposite; otherwise an infinite operand decides the result, keeping its sign |
| JsNumber.DivCount | sportiq/app/services/PerformanceService.js:57 | dividing by a positive count gives a finite value exactly for a finite one, and that quotient times the count is the dividend; an infinity keeps its sign and NaN stays NaN |
| PerformanceService.PerformanceHistory | sportiq/app/services/PerformanceService.js:61-106 | the history echoes the athlete id and holds four samples |
| PerformanceService.HistoryDatesAscending | sportiq/app/services/PerformanceService.js:65-101 | the history echoes the athlete id and has four samples in strictly ascending date order |
| PerformanceService.HistoryKeysInCatalogue | sportiq/app/services/PerformanceService.js:65-145 | every sample records exactly the first five measurements of the catalogue |
| PerformanceService.CatalogueKeysDistinct | sportiq/app/services/PerformanceService.js:109-168 | the catalogue has eight measurements with pairwise-distinct keys |
| JsonData.Property | sportiq/app/services/StatsService.js:116 | reading a property of null throws, and a read yields a value exactly for an own field of an object |
| JsText.NatToDecimal | sportiq/app/services/ApiService.js:87 | a status code renders as a non-empty run of digits, without a leading zero, that denotes it |

## Left out

- Network, storage and time: `fetch`, `response.json()`, `response.text()` and AsyncStorage are not executed. Their outcomes are inputs, and one readable/writable flag stands for all storage calls of a request.
- Console logging: no effect on results.
- Body streams: a second read of a response body (`text()` after a failed `json()`) is modelled as returning the text input. The disturbed-stream error a browser would raise is not modelled.
- `JSON.stringify`: request bodies are the JSON value to be serialised. Values that do not serialise (undefined, functions, cycles) are not modelled.
- Floating point: numbers are exact reals with NaN and the two infinities. Binary rounding, the overflow of a huge exponent to Infinity, and `-0` are not modelled.
- Property reads: only an object's own fields are properties. Reads on arrays, strings and booleans (`length`, index properties, prototype members) give undefined in the model.
- StatsService.ShapeResult: the result object is a map, so the stat type is always its key. In JavaScript, `responseObj['__proto__'] = …` on the `{}` literal calls the prototype setter and creates no own key; the model does not follow that.
- ApiService.RefreshToken: only a non-empty string `accessToken` counts as a new token. A truthy non-string one, which the code would hand to `AsyncStorage.setItem` and return, is treated as no token.
- PerformanceService.CalculateAverage: entries are strings. Non-string entries would make `val.trim` throw, or be truthy without a `trim`, and are not modelled.
- PerformanceService.IsValidNumberMeaning: covers primitive values only. Objects and arrays go through `toString`/`valueOf`, which is not modelled.
- PerformanceService.AverageWithinBounds: stated for finite values. `parseFloat` can return an infinity, and then the average is infinite or NaN.
- StatsService.FallbackEndpoint: states that the fallback URL is the same for every athlete id, not that it never contains the id. A short id such as `5` or `athlete` does occur in it.
- The `getPerformanceHistory` sample values are modelled as given. Only their dates and keys carry properties.
- The catch blocks that log and rethrow (`getPerformanceMeasurements`, `savePerformanceMeasurements`, `generateStat`, `getAthleteStats`) are the identity on outcomes and have no separate member.
- The insights screen's sport-recommendation scoring routine is not part of this model.
- The UI screens and the backend routes are not part of this model.

=== FILE: api_service.dfy ===
/** The authenticated request layer of the mobile client: URL building,
    header merging, bearer authorisation from AsyncStorage, one token refresh
    and retry on 401, and the classification of responses.

    AsyncStorage is a value (`Storage`) threaded through the calls; the
    outcome of every `fetch` the layer may issue is an input (`Env`). */
module ApiService {
  import opened Wrappers
  import opened JsText
  import opened JsonData
  import opened Http

  // ---------------------------------------------------------------------------
  // AsyncStorage

  /** The key-value store, and whether reads and writes currently succeed. */
  datatype Storage = Storage(items: map<string, string>, readable: bool, writable: bool)

  datatype StorageError = StorageUnavailable

  /** `AsyncStorage.getItem(key)`: throws when the store cannot be read. */
  function GetItem(storage: Storage, key: string): Result<Option<string>, StorageError> {
    if !storage.readable then Failure(StorageUnavailable)
    else Success(if key in storage.items then Some(storage.items[key]) else None)
  }

  /** `getAccessToken()`: the stored access token; a failed read yields null. */
  function AccessToken(storage: Storage): (token: Option<string>)
    ensures token.Some? <==> storage.readable && "accessToken" in storage.items
    ensures token.Some? ==> token.value == storage.items["accessToken"]
  {
    match GetItem(storage, "accessToken")
    case Success(value) => value
    case Failure(_) => None
  }

  // ---------------------------------------------------------------------------
  // Requests

  /** The fetch options a caller passes; `headers` is empty when it passes none. */
  datatype Options = Options(verb: Option<Method>, body: Option<Json>, headers: Headers)

  /** A call `request(endpoint, options, requiresAuth)`. */
  datatype Call = Call(endpoint: string, options: Options, requiresAuth: bool)

  /** The absolute URL of an endpoint: exactly one `/` is put between the base
      and an endpoint that lacks one. */
  function Url(endpoint: string): string {
    BackendUrl + (if StartsWith(endpoint, "/") then endpoint else "/" + endpoint)
  }

  /** `{'Content-Type': 'application/json', ...options.headers}`. */
  function MergeHeaders(callerHeaders: Headers): Headers {
    map["Content-Type" := JsonContentType] + callerHeaders
  }

  function Bearer(token: string): string {
    "Bearer " + token
  }

  /** The headers of the first attempt: the merged headers, with
      `Authorization` overwritten when the call requires authentication and a
      truthy access token was read. */
  function FirstHeaders(call: Call, storage: Storage): Headers {
    var headers := MergeHeaders(call.options.headers);
    var token := if call.requiresAuth then AccessToken(storage) else None;
    if token.Some? && token.value != "" then headers["Authorization" := Bearer(token.value)] else headers
  }

  /** The request of the first attempt. */
  function FirstRequest(call: Call, storage: Storage): Request {
    Request(Url(call.endpoint), call.options.verb, FirstHeaders(call, storage), call.options.body)
  }

  // ---------------------------------------------------------------------------
  // Responses

  /** What `handleResponse` resolves to: parsed JSON (`null` for 204) or text. */
  datatype Payload = Data(json: Json) | Text(text: string)

  function ApiErrorText(status: nat): string {
    "API error: " + NatToDecimal(status)
  }

  /** `data.message || \`API error: ${status}\``, the error the try block
      throws for a non-ok JSON reply (reading `message` of null throws). */
  function ServerError(data: Json, status: nat): Error {
    match Property(data, "message")
    case Failure(key) => NullRead(key)
    case Success(message) =>
      if TruthyField(message) then ServerMessage(message.value) else Message(ApiErrorText(status))
  }

  /** The try block of `handleResponse`: parse the body as JSON, then throw if
      the status is not ok. */
  function TryParse(response: Response): Result<Json, Error> {
    match response.json
    case None => Failure(BadJson)
    case Some(data) => if response.Ok() then Success(data) else Failure(ServerError(data, response.status))
  }

  /** `handleResponse(response)`. Whatever the try block threw is replaced in
      the catch block: a non-ok response always fails with `API error:
      <status>`, and an ok response that is not JSON resolves to its text. */
  function HandleResponse(response: Response): (r: Result<Payload, Error>)
    ensures response.status == 204 ==> r == Success(Data(JNull))
    ensures !response.Ok() ==> r == Failure(Message(ApiErrorText(response.status)))
    ensures response.Ok() && response.status != 204 ==>
              r == Success(if response.json.Some? then Data(response.json.value) else Text(response.text))
  {
    if response.status == 204 then Success(Data(JNull))
    else
      match TryParse(response)
      case Success(data) => Success(Data(data))
      case Failure(_) =>
        if !response.Ok() then Failure(Message(ApiErrorText(response.status)))
        else Success(Text(response.text))
  }

  /** The outcome of the awaited `fetch` followed by `handleResponse`. */
  function Settle(reply: FetchOutcome): Result<Payload, Error> {
    match reply
    case Rejected(reason) => Failure(NetworkFailure(reason))
    case Resolved(response) => HandleResponse(response)
  }

  // ---------------------------------------------------------------------------
  // Token refresh

  const RefreshUrl: string := BackendUrl + "/auth/refresh_token"

  /** The request `refreshToken` sends for a stored refresh token. */
  function RefreshRequest(refreshToken: string): Request {
    Request(RefreshUrl, Some(POST), map["Content-Type" := JsonContentType],
            Some(JObject(map["refreshToken" := JString(refreshToken)])))
  }

  /** What `refreshToken` did: the requests it sent, the token it resolved to
      (`None` for null) and the store afterwards. */
  datatype Refresh = Refresh(calls: seq<Request>, token: Option<string>, storage: Storage)

  /** The truthy refresh token in the store, if it can be read. */
  function StoredRefreshToken(storage: Storage): Option<string> {
    match GetItem(storage, "refreshToken")
    case Success(Some(value)) => if value != "" then Some(value) else None
    case _ => None
  }

  /** The truthy string `accessToken` of a refresh reply, if any. */
  function ReplyAccessToken(reply: FetchOutcome): Option<string> {
    if reply.Rejected? || reply.response.json.None? then None
    else
      match Property(reply.response.json.value, "accessToken")
      case Success(Some(JString(token))) => if token != "" then Some(token) else None
      case _ => None
  }

  /** `refreshToken()` given the store and the outcome of its `fetch`. It never
      throws: every failure resolves to null. */
  function RefreshToken(storage: Storage, reply: FetchOutcome): (r: Refresh)
    ensures |r.calls| <= 1
    ensures r.calls == [] <==> StoredRefreshToken(storage).None?
    ensures r.calls != [] ==> r.calls[0] == RefreshRequest(StoredRefreshToken(storage).value)
    ensures r.token.Some? <==>
              StoredRefreshToken(storage).Some? && ReplyAccessToken(reply).Some? && storage.writable
    ensures r.token.Some? ==> r.token == ReplyAccessToken(reply)
                              && r.storage == storage.(items := storage.items["accessToken" := r.token.value])
    ensures r.token.None? ==> r.storage == storage
  {
    match StoredRefreshToken(storage)
    case None => Refresh([], None, storage)
    case Some(refreshToken) =>
      var calls := [RefreshRequest(refreshToken)];
      match ReplyAccessToken(reply)
      case None => Refresh(calls, None, storage)
      case Some(token) =>
        if storage.writable then Refresh(calls, Some(token), storage.(items := storage.items["accessToken" := token]))
        else Refresh(calls, None, storage)
  }

  // ---------------------------------------------------------------------------
  // request

  /** The outcomes of the fetches `request` may issue, in order: the first
      attempt, the refresh call, the retry. Unused ones are ignored. */
  datatype Env = Env(storage: Storage, first: FetchOutcome, refreshReply: FetchOutcome, retry: FetchOutcome)

  /** What `request` did: the requests sent in order, what it resolved or
      rejected with, and the store afterwards. */
  datatype Outcome = Outcome(calls: seq<Request>, result: Result<Payload, Error>, storage: Storage)

  /** `request(endpoint, options, requiresAuth)`. */
  function Send(call: Call, env: Env): (o: Outcome)
    ensures 1 <= |o.calls| <= 3 && o.calls[0] == FirstRequest(call, env.storage)
    ensures env.first.Rejected? ==>
              o.calls == [o.calls[0]] && o.result == Failure(NetworkFailure(env.first.reason)) && o.storage == env.storage
  {
    var first := FirstRequest(call, env.storage);
    match env.first
    case Rejected(reason) => Outcome([first], Failure(NetworkFailure(reason)), env.storage)
    case Resolved(response) =>
      if response.status == 401 && call.requiresAuth then
        var refresh := RefreshToken(env.storage, env.refreshReply);
        match refresh.token
        case Some(token) =>
          var retry := first.(headers := first.headers["Authorization" := Bearer(token)]);
          Outcome([first] + refresh.calls + [retry], Settle(env.retry), refresh.storage)
        case None =>
          Outcome([first] + refresh.calls, HandleResponse(response), refresh.storage)
      else Outcome([first], HandleResponse(response), env.storage)
  }

  // ---------------------------------------------------------------------------
  // Convenience wrappers

  /** `get(endpoint, requiresAuth = true)`. */
  function Get(endpoint: string, requiresAuth: bool := true): Call {
    Call(endpoint, Options(Some(GET), None, map[]), requiresAuth)
  }

  /** `post(endpoint, data = {}, requiresAuth = true)`. */
  function Post(endpoint: string, data: Json := JObject(map[]), requiresAuth: bool := true): Call {
    Call(endpoint, Options(Some(POST), Some(data), map[]), requiresAuth)
  }

  /** `put(endpoint, data = {}, requiresAuth = true)`. */
  function Put(endpoint: string, data: Json := JObject(map[]), requiresAuth: bool := true): Call {
    Call(endpoint, Options(Some(PUT), Some(data), map[]), requiresAuth)
  }

  /** `delete(endpoint, requiresAuth = true)`. */
  function Delete(endpoint: string, requiresAuth: bool := true): Call {
    Call(endpoint, Options(Some(DELETE), None, map[]), requiresAuth)
  }

  // ---------------------------------------------------------------------------
  // Properties

  /** `x` and `/x` name the same URL, and the URL is the base, one slash and
      the endpoint without its leading slash. */
  lemma UrlNormalisation(endpoint: string)
    ensures Url(endpoint) == BackendUrl + "/" + (if StartsWith(endpoint, "/") then endpoint[1..] else endpoint)
    ensures !StartsWith(endpoint, "/") ==> Url(endpoint) == Url("/" + endpoint)
  {
    if StartsWith(endpoint, "/") {
      assert endpoint == "/" + endpoint[1..];
    } else {
      assert StartsWith("/" + endpoint, "/");
    }
  }

  /** The header policy of the first attempt: caller headers win over the
      JSON default, and a bearer token from storage wins over a caller's
      `Authorization`; it is set exactly when authentication is required and
      a truthy token was read. */
  lemma HeaderPolicy(call: Call, storage: Storage)
    ensures var h, caller := FirstHeaders(call, storage), call.options.headers;
      var token := AccessToken(storage);
      var authorised := call.requiresAuth && token.Some? && token.value != "";
      && h.Keys == caller.Keys + {"Content-Type"} + (if authorised then {"Authorization"} else {})
      && h["Content-Type"] == (if "Content-Type" in caller then caller["Content-Type"] else JsonContentType)
      && (forall k :: k in caller && k != "Authorization" ==> h[k] == caller[k])
      && (authorised ==> h["Authorization"] == Bearer(token.value))
      && (!authorised && "Authorization" in caller ==> h["Authorization"] == caller["Authorization"])
  {
  }

  /** A store that cannot be read leaves the request unauthorised but still
      sends it. */
  lemma TokenReadFailureDoesNotAbort(call: Call, env: Env)
    requires !env.storage.readable
    ensures Send(call, env).calls[0] ==
      Request(Url(call.endpoint), call.options.verb, MergeHeaders(call.options.headers), call.options.body)
  {
  }

  /** The 401 rule: only a 401 on an authenticated call leads to more than one
      request; then exactly one refresh is attempted and at most one retry is
      sent, carrying the freshly stored token and otherwise identical to the
      first attempt. Without a new token the 401 itself is classified. */
  lemma RetryRule(call: Call, env: Env)
    ensures var o := Send(call, env);
      && (|o.calls| > 1 ==> && env.first.Resolved? && env.first.response.status == 401 && call.requiresAuth
                            && o.calls[1] == RefreshRequest(StoredRefreshToken(env.storage).value))
      && (|o.calls| == 3 ==> && o.storage == RefreshToken(env.storage, env.refreshReply).storage
                             && ReplyAccessToken(env.refreshReply).Some?
                             && o.calls[2].headers["Authorization"] == Bearer(ReplyAccessToken(env.refreshReply).value)
                             && "accessToken" in o.storage.items
                             && o.calls[2] == o.calls[0].(headers := o.calls[0].headers["Authorization" :=
                                  Bearer(o.storage.items["accessToken"])])
                             && o.result == Settle(env.retry))
      && (|o.calls| < 3 && env.first.Resolved? ==> o.result == HandleResponse(env.first.response))
      && (|o.calls| < 3 ==> o.storage == env.storage)
      && (!call.requiresAuth ==> |o.calls| == 1)
  {
  }

  /** The refresh is attempted exactly for an authenticated call answered by
      401, and a retry follows exactly when it produced a token. */
  lemma RefreshAttempted(call: Call, env: Env)
    requires env.first.Resolved? && env.first.response.status == 401 && call.requiresAuth
    ensures var o := Send(call, env);
      var refresh := RefreshToken(env.storage, env.refreshReply);
      && o.calls == [o.calls[0]] + refresh.calls + (if refresh.token.Some? then [o.calls[|o.calls| - 1]] else [])
      && (refresh.token.None? ==> o.result == Failure(Message(ApiErrorText(401))))
  {
  }

  /** Every failure of `request` is a network failure or `API error:
      <status>` for a non-ok status: a server-supplied message, a JSON parse
      error or a null body never reaches the caller. */
  lemma FailuresAreClassified(call: Call, env: Env)
    ensures var r := Send(call, env).result;
      r.Failure? ==> (r.error.NetworkFailure? ||
                      exists status: nat :: !(200 <= status <= 299) && r.error == Message(ApiErrorText(status)))
  {
    var o := Send(call, env);
    if o.result.Failure? && !o.result.error.NetworkFailure? {
      var reply := if |o.calls| == 3 then env.retry else env.first;
      assert o.result == HandleResponse(reply.response);
      var status := reply.response.status;
      assert !(200 <= status <= 299) && o.result.error == Message(ApiErrorText(status));
    }
  }

  /** The server's message is thrown inside the try block and dropped by the
      catch block: a 400 reply `{"message": "Invalid credentials"}` surfaces
      only as `API error: 400`. */
  lemma ServerMessageDropped()
    ensures var response := Response(400, Some(JObject(map["message" := JString("Invalid credentials")])), "");
      && TryParse(response) == Failure(ServerMessage(JString("Invalid credentials")))
      && HandleResponse(response) == Failure(Message("API error: 400"))
  {
    assert DigitChar(4) == '4' && DigitChar(0) == '0';
    assert NatToDecimal(4) == "4";
    assert NatToDecimal(40) == "40";
    assert NatToDecimal(400) == "400";
    assert ApiErrorText(400) == "API error: 400";
  }

  /** `refreshToken` does not look at the refresh reply's status: an error
      reply that carries an `accessToken` still replaces the stored token. */
  lemma RefreshIgnoresStatus(refreshToken: string, token: string)
    requires refreshToken != "" && token != ""
    ensures var storage := Storage(map["refreshToken" := refreshToken], true, true);
      var reply := Resolved(Response(500, Some(JObject(map["accessToken" := JString(token)])), ""));
      var r := RefreshToken(storage, reply);
      r.token == Some(token) && r.storage.items["accessToken"] == token
  {
  }

  /** The wrappers fix the verb; `post` and `put` send `data` (`{}` by
      default), `get` and `delete` send no body; authentication is required
      unless the caller opts out; no caller headers are passed. */
  lemma WrapperContracts(endpoint: string, data: Json, requiresAuth: bool)
    ensures Get(endpoint) == Call(endpoint, Options(Some(GET), None, map[]), true)
    ensures Delete(endpoint) == Call(endpoint, Options(Some(DELETE), None, map[]), true)
    ensures Post(endpoint) == Call(endpoint, Options(Some(POST), Some(JObject(map[])), map[]), true)
    ensures Put(endpoint) == Call(endpoint, Options(Some(PUT), Some(JObject(map[])), map[]), true)
    ensures Post(endpoint, data, requiresAuth).options == Options(Some(POST), Some(data), map[])
    ensures Put(endpoint, data, requiresAuth).options == Options(Some(PUT), Some(data), map[])
    ensures Get(endpoint, requiresAuth).requiresAuth == requiresAuth
    ensures Delete(endpoint, requiresAuth).requiresAuth == requiresAuth
  {
  }
}

=== FILE: http.dfy ===
/** What the services exchange with the backend. `fetch` and `response.json()`
    are not executed: each call's outcome is an input (an oracle) to the
    operation that makes it. */
module Http {
  import opened Wrappers
  import opened JsonData

  /** Base address of the backend, shared by every service. */
  const BackendUrl: string := "http://18.142.49.203:5000"

  const JsonContentType: string := "application/json"

  datatype Method = GET | POST | PUT | DELETE

  type Headers = map<string, string>

  /** A request handed to `fetch`. `verb` is `None` when the options carry no
      method (fetch then issues a GET); `body` is the value whose
      `JSON.stringify` text is sent. */
  datatype Request = Request(url: string, verb: Option<Method>, headers: Headers, body: Option<Json>)

  /** A response: its status, the outcome of `response.json()` (`None` when
      the body is not JSON) and the outcome of `response.text()`. */
  datatype Response = Response(status: nat, json: Option<Json>, text: string) {
    /** `response.ok`. */
    predicate Ok() {
      200 <= status <= 299
    }
  }

  /** Outcome of one `fetch` call: it rejects (network failure) or resolves. */
  datatype FetchOutcome = Rejected(reason: string) | Resolved(response: Response)

  /** What a service call throws. */
  datatype Error =
    | Message(text: string)        // an `Error` the service constructs itself
    | NetworkFailure(reason: string) // a rejection of `fetch`, rethrown
    | BadJson                      // `response.json()` rejected: the body is not JSON
    | NullRead(key: string)        // TypeError: reading property `key` of null
    | ServerMessage(value: Json)   // `new Error(data.message)` for a truthy server message
}

=== FILE: js_number.dfy ===
/** JavaScript's string-to-number conversions as the services use them:
    `parseFloat` (longest numeric prefix after leading whitespace), `Number()`
    / the implicit conversion inside the global `isFinite` (the whole trimmed
    string must be numeric), and the IEEE special values they can produce.
    Finite values are exact reals: binary rounding is not modelled. */
module JsNumber {
  import opened Wrappers
  import opened JsText

  /** A JavaScript number: a finite value, an infinity, or NaN. */
  datatype Num = Finite(r: real) | PosInf | NegInf | NaN

  /** Number of leading decimal digits of `s`. */
  function LeadingDigits(s: string): (n: nat)
    ensures n <= |s| && AllDigits(s[..n])
    ensures n == |s| || !IsDigit(s[n])
  {
    if |s| > 0 && IsDigit(s[0]) then
      var n := 1 + LeadingDigits(s[1..]);
      assert s[..n] == [s[0]] + s[1..][..n - 1];
      n
    else 0
  }

  lemma {:induction false} LeadingDigitsOfDigits(s: string)
    requires AllDigits(s)
    ensures LeadingDigits(s) == |s|
  {
    if |s| > 0 {
      LeadingDigitsOfDigits(s[1..]);
    }
  }

  /** A scanned numeric literal: its value and how many characters it spans. */
  datatype Scan = Scan(value: Num, length: nat)

  /** The optional exponent part `(e|E) [+|-] digits` at the start of `s`, as a
      signed exponent and its length; `(0, 0)` when `s` does not start with a
      complete exponent (then `parseFloat` stops before the `e`). */
  function ScanExponent(s: string): (r: (int, nat))
    ensures r.1 <= |s|
    ensures r.1 == 0 ==> r.0 == 0
    ensures r.1 > 0 ==> |s| >= 2 && (s[0] == 'e' || s[0] == 'E')
  {
    if |s| >= 2 && (s[0] == 'e' || s[0] == 'E') then
      var signed := s[1] == '+' || s[1] == '-';
      var start := if signed then 2 else 1;
      var rest := s[start..];
      var n := LeadingDigits(rest);
      if n == 0 then (0, 0)
      else
        var e: int := DigitsValue(rest[..n]);
        (if s[1] == '-' then -e else e, start + n)
    else (0, 0)
  }

  /** `m` times ten to the power `e`. */
  function Scale(m: real, e: int): real
    decreases if e >= 0 then e else -e
  {
    if e == 0 then m
    else if e > 0 then 10.0 * Scale(m, e - 1)
    else Scale(m, e + 1) / 10.0
  }

  /** Value of the digits after a decimal point: `0.d1d2...`. */
  function FractionValue(s: string): real
    requires AllDigits(s)
  {
    if s == [] then 0.0 else (DigitValue(s[0]) as real + FractionValue(s[1..])) / 10.0
  }

  /** Digits with an optional fraction at the start of `s` (`12`, `12.`,
      `12.5`, `.5`, but not `.`): their value and length. */
  function ScanMantissa(s: string): (r: Option<(real, nat)>)
    ensures r.Some? ==> 0 < r.value.1 <= |s|
  {
    var i := LeadingDigits(s);
    var dot := i < |s| && s[i] == '.';
    var f := if dot then LeadingDigits(s[i + 1..]) else 0;
    if i + f == 0 then None
    else
      var whole := DigitsValue(s[..i]) as real;
      var frac := if dot then FractionValue(s[i + 1..][..f]) else 0.0;
      Some((whole + frac, if dot then i + 1 + f else i))
  }

  /** The longest prefix of `s` that is an unsigned StrDecimalLiteral
      (ECMA-262 section 7.1.4.1): `Infinity`, or a mantissa with an optional
      exponent. */
  function ScanUnsigned(s: string): (r: Option<Scan>)
    ensures r.Some? ==> 0 < r.value.length <= |s|
    ensures r.Some? && !r.value.value.Finite? ==> r.value == Scan(PosInf, 8) && StartsWith(s, "Infinity")
  {
    if StartsWith(s, "Infinity") then Some(Scan(PosInf, 8))
    else
      match ScanMantissa(s)
      case None => None
      case Some(m) =>
        var exp := ScanExponent(s[m.1..]);
        Some(Scan(Finite(Scale(m.0, exp.0)), m.1 + exp.1))
  }

  function Negate(n: Num): Num {
    match n
    case Finite(r) => Finite(-r)
    case PosInf => NegInf
    case NegInf => PosInf
    case NaN => NaN
  }

  /** The longest prefix of `s` that is a StrDecimalLiteral, sign included. */
  function ScanDecimal(s: string): (r: Option<Scan>)
    ensures r.Some? ==> 0 < r.value.length <= |s| && r.value.value != NaN
  {
    if |s| > 0 && (s[0] == '+' || s[0] == '-') then
      match ScanUnsigned(s[1..])
      case None => None
      case Some(sc) => Some(Scan(if s[0] == '-' then Negate(sc.value) else sc.value, sc.length + 1))
    else ScanUnsigned(s)
  }

  /** `parseFloat(s)` for a string `s`. */
  function ParseFloat(s: string): Num {
    match ScanDecimal(TrimStart(s))
    case None => NaN
    case Some(sc) => sc.value
  }

  // ---------------------------------------------------------------------------
  // Number(s): StringToNumber of ECMA-262 section 7.1.4.1.1

  /** Value of `c` as a digit in base `radix` (2, 8 or 16), if it is one. */
  function RadixDigit(c: char, radix: nat): (d: Option<nat>)
    ensures d.Some? ==> d.value < radix
  {
    if IsDigit(c) && DigitValue(c) < radix then Some(DigitValue(c))
    else if radix == 16 && 'a' <= c <= 'f' then Some(c as int - 'a' as int + 10)
    else if radix == 16 && 'A' <= c <= 'F' then Some(c as int - 'A' as int + 10)
    else None
  }

  /** Value of a non-empty run of base-`radix` digits, or `None` if some
      character is not such a digit. */
  function RadixValue(s: string, radix: nat): Option<nat>
  {
    if s == [] then None
    else
      var last := RadixDigit(s[|s| - 1], radix);
      if last.None? then None
      else if |s| == 1 then last
      else match RadixValue(s[..|s| - 1], radix)
        case None => None
        case Some(v) => Some(v * radix + last.value)
  }

  /** The radix a `0x`/`0o`/`0b` prefix (either case) selects, if `s` has one. */
  function RadixPrefix(s: string): Option<nat> {
    if |s| < 2 || s[0] != '0' then None
    else if s[1] == 'x' || s[1] == 'X' then Some(16)
    else if s[1] == 'o' || s[1] == 'O' then Some(8)
    else if s[1] == 'b' || s[1] == 'B' then Some(2)
    else None
  }

  /** `Number(s)` for a string `s`: surrounding whitespace is ignored, the empty
      string is 0, and otherwise the whole rest must be one numeric literal. */
  function ToNumber(s: string): Num {
    var t := Trim(s);
    if t == [] then Finite(0.0)
    else if RadixPrefix(t).Some? then
      match RadixValue(t[2..], RadixPrefix(t).value)
      case Some(v) => Finite(v as real)
      case None => NaN
    else
      match ScanDecimal(t)
      case Some(sc) => if sc.length == |t| then sc.value else NaN
      case None => NaN
  }

  // ---------------------------------------------------------------------------
  // Arithmetic used by averaging

  /** `a + b` on JavaScript numbers (finite sums exact). */
  function Add(a: Num, b: Num): (c: Num)
    ensures a.Finite? && b.Finite? ==> c == Finite(a.r + b.r)
    ensures c == NaN <==> (a == NaN || b == NaN || (a == PosInf && b == NegInf) || (a == NegInf && b == PosInf))
    ensures (a.PosInf? || b.PosInf?) && c != NaN ==> c == PosInf
    ensures (a.NegInf? || b.NegInf?) && c != NaN ==> c == NegInf
  {
    match (a, b)
    case (Finite(x), Finite(y)) => Finite(x + y)
    case (NaN, _) => NaN
    case (_, NaN) => NaN
    case (PosInf, NegInf) => NaN
    case (NegInf, PosInf) => NaN
    case (PosInf, _) => PosInf
    case (_, PosInf) => PosInf
    case (NegInf, _) => NegInf
    case (_, NegInf) => NegInf
  }

  /** `a / n` for a positive count `n`: a finite value is scaled down, and
      an infinity or NaN keeps its kind, since the divisor is positive. */
  function DivCount(a: Num, n: nat): (c: Num)
    requires n > 0
    ensures c.Finite? <==> a.Finite?
    ensures c.Finite? ==> c.r * (n as real) == a.r
    ensures c.PosInf? <==> a.PosInf?
    ensures c.NaN? <==> a.NaN?
  {
    match a
    case Finite(x) => Finite(x / n as real)
    case _ => a
  }

  // ---------------------------------------------------------------------------
  // Properties

  /** A run of digits scans as the number it denotes, consuming all of it. */
  lemma ScanOfDigits(s: string)
    requires |s| > 0 && AllDigits(s)
    ensures ScanDecimal(s) == Some(Scan(Finite(DigitsValue(s) as real), |s|))
  {
    LeadingDigitsOfDigits(s);
    assert !StartsWith(s, "Infinity") by {
      assert s[0] != 'I';
    }
    assert s[..|s|] == s;
    assert ScanMantissa(s) == Some((DigitsValue(s) as real, |s|));
    assert ScanExponent(s[|s|..]) == (0, 0);
  }

  /** `parseFloat` reads back the decimal rendering of every natural number. */
  lemma ParseFloatOfDecimal(n: nat)
    ensures ParseFloat(NatToDecimal(n)) == Finite(n as real)
  {
    var s := NatToDecimal(n);
    assert TrimStart(s) == s by {
      assert !IsSpace(s[0]);
    }
    ScanOfDigits(s);
  }

  /** Whitespace alone is never a number to `parseFloat`. */
  lemma ParseFloatOfSpace(s: string)
    requires AllSpace(s)
    ensures ParseFloat(s) == NaN
  {
    AllSpaceTrimsToEmpty(s);
  }

  /** The only literals that scan to a non-finite value are `Infinity`,
      `+Infinity` and `-Infinity`; `k` is the length of the sign. */
  lemma ScanNonFinite(u: string) returns (k: nat)
    requires ScanDecimal(u).Some? && !ScanDecimal(u).value.value.Finite?
    ensures k <= 1 && (k == 1 <==> u[0] == '+' || u[0] == '-')
    ensures StartsWith(u[k..], "Infinity") && ScanDecimal(u).value.length == k + 8
  {
    k := if u[0] == '+' || u[0] == '-' then 1 else 0;
  }

  /** A signed or unsigned `Infinity` at the start of `x` scans as an infinity. */
  lemma ScanInfinity(x: string, k: nat)
    requires k <= 1 && |x| >= k + 8 && (k == 1 <==> x[0] == '+' || x[0] == '-')
    requires StartsWith(x[k..], "Infinity")
    ensures ScanDecimal(x).Some? && !ScanDecimal(x).value.value.Finite?
    ensures ScanDecimal(x).value.length == k + 8
    ensures RadixPrefix(x).None?
  {
    assert x[0] == '+' || x[0] == '-' || x[0] == 'I' by {
      assert x[k..][0] == 'I';
    }
  }

  /** Trimming the end of `u` keeps a non-space character and all before it. */
  lemma TrimEndKeeps(u: string, j: nat)
    requires j < |u| && !IsSpace(u[j])
    ensures |TrimEnd(u)| > j && TrimEnd(u)[..j + 1] == u[..j + 1]
  {
    TrimmedTailIsSpace(u, j);
    TrimEndShape(u);
  }

  lemma TrimmedTailIsSpace(u: string, j: nat)
    requires j < |u|
    ensures j >= |TrimEnd(u)| ==> IsSpace(u[j])
  {
    var t := TrimEnd(u);
    TrimEndShape(u);
    if j >= |t| {
      assert u[j] == u[|t|..][j - |t|];
    }
  }

  /** An infinity `parseFloat` reads survives trimming the end: `Trim(s)`
      starts with the same signed `Infinity`. */
  lemma TrimKeepsInfinity(s: string) returns (k: nat)
    requires ScanDecimal(TrimStart(s)).Some? && !ScanDecimal(TrimStart(s)).value.value.Finite?
    ensures k <= 1 && |Trim(s)| >= k + 8
    ensures k == 1 <==> Trim(s)[0] == '+' || Trim(s)[0] == '-'
    ensures StartsWith(Trim(s)[k..], "Infinity")
  {
    var u := TrimStart(s);
    var t := Trim(s);
    k := ScanNonFinite(u);
    assert u[k + 7] == 'y' by {
      assert u[k..][..8] == "Infinity";
      assert u[k + 7] == u[k..][..8][7];
    }
    TrimEndKeeps(u, k + 7);
    assert t[0] == u[0];
    assert t[k..][..8] == u[k..][..8];
  }

  /** The trimmed string `Number()` looks at scans as the same infinity. */
  lemma TrimmedScanIsInfinite(s: string)
    requires ScanDecimal(TrimStart(s)).Some? && !ScanDecimal(TrimStart(s)).value.value.Finite?
    ensures Trim(s) != [] && RadixPrefix(Trim(s)).None?
    ensures ScanDecimal(Trim(s)).Some? && !ScanDecimal(Trim(s)).value.value.Finite?
  {
    var k := TrimKeepsInfinity(s);
    ScanInfinity(Trim(s), k);
  }

  /** `Number()` of a string whose trimmed form has no radix prefix and starts
      with an infinite decimal literal is not finite: it is that infinity when
      the literal spans the whole trimmed string, and NaN otherwise. */
  lemma ToNumberOfInfinity(s: string)
    requires Trim(s) != [] && RadixPrefix(Trim(s)).None?
    requires ScanDecimal(Trim(s)).Some? && !ScanDecimal(Trim(s)).value.value.Finite?
    ensures !ToNumber(s).Finite?
  {
  }

  /** When `parseFloat` reads an infinity, `Number()` of the same string is not
      finite. */
  lemma InfinityNotFiniteNumber(s: string)
    requires ScanDecimal(TrimStart(s)).Some? && !ScanDecimal(TrimStart(s)).value.value.Finite?
    ensures !ToNumber(s).Finite?
  {
    TrimmedScanIsInfinite(s);
    ToNumberOfInfinity(s);
  }

  /** Leading whitespace changes neither `parseFloat` nor `Number()`. */
  lemma LeadingSpaceIgnored(w: string, s: string)
    requires AllSpace(w)
    ensures ParseFloat(w + s) == ParseFloat(s)
    ensures ToNumber(w + s) == ToNumber(s)
  {
    TrimStartPastSpace(w, s);
  }

  /** The two conversions disagree on a blank string: `Number()` reads it as
      zero, `parseFloat` as NaN. */
  lemma BlankConversions(s: string)
    requires AllSpace(s)
    ensures ToNumber(s) == Finite(0.0)
    ensures ParseFloat(s) == NaN
  {
    AllSpaceTrimsToEmpty(s);
    ParseFloatOfSpace(s);
  }

  /** When both conversions accept a string, `parseFloat` read a finite value. */
  lemma ParseFloatFiniteWhenNumberFinite(s: string)
    ensures ParseFloat(s) != NaN && ToNumber(s).Finite? ==> ParseFloat(s).Finite?
  {
    var u := TrimStart(s);
    if ScanDecimal(u).Some? && !ScanDecimal(u).value.value.Finite? {
      InfinityNotFiniteNumber(s);
    }
  }
}

=== FILE: js_text.dfy ===
/** The JavaScript string operations the services rely on: whitespace trimming
    (`String.prototype.trim`), prefix tests (`startsWith`) and the decimal
    rendering of a non-negative integer (template-literal interpolation of an
    HTTP status code). */
module JsText {

  /** WhiteSpace or LineTerminator code point of ECMA-262 (sections 12.2 and
      12.3): the characters `trim` removes and `parseFloat` skips. */
  predicate IsSpace(c: char) {
    || c == '\t' || c == '\n' || c == '\U{000B}' || c == '\U{000C}' || c == '\r'
    || c == ' ' || c == '\U{00A0}' || c == '\U{1680}'
    || ('\U{2000}' <= c <= '\U{200A}')
    || c == '\U{2028}' || c == '\U{2029}' || c == '\U{202F}' || c == '\U{205F}'
    || c == '\U{3000}' || c == '\U{FEFF}'
  }

  predicate AllSpace(s: string) {
    forall i :: 0 <= i < |s| ==> IsSpace(s[i])
  }

  predicate StartsWith(s: string, prefix: string) {
    |prefix| <= |s| && s[..|prefix|] == prefix
  }

  /** `s.trimStart()`: drops the whitespace at the front of `s`. */
  function TrimStart(s: string): (t: string)
    ensures |t| <= |s|
  {
    if |s| > 0 && IsSpace(s[0]) then TrimStart(s[1..]) else s
  }

  /** `s.trimEnd()`: drops the whitespace at the end of `s`. */
  function TrimEnd(s: string): (t: string)
    ensures |t| <= |s|
  {
    if |s| > 0 && IsSpace(s[|s| - 1]) then TrimEnd(s[..|s| - 1]) else s
  }

  /** `TrimStart(s)` is the longest suffix of `s` that does not begin with
      whitespace: what it drops is all whitespace, and it keeps the rest. */
  lemma {:induction false} TrimStartShape(s: string)
    ensures var t := TrimStart(s);
      && t == s[|s| - |t|..]
      && AllSpace(s[..|s| - |t|])
      && (t == [] || !IsSpace(t[0]))
  {
    if |s| > 0 && IsSpace(s[0]) {
      TrimStartShape(s[1..]);
      var t := TrimStart(s);
      assert s[..|s| - |t|] == [s[0]] + s[1..][..|s| - 1 - |t|];
    }
  }

  /** `TrimEnd(s)` is the longest prefix of `s` that does not end with
      whitespace. */
  lemma {:induction false} TrimEndShape(s: string)
    ensures var t := TrimEnd(s);
      && t == s[..|t|]
      && AllSpace(s[|t|..])
      && (t == [] || !IsSpace(t[|t| - 1]))
  {
    if |s| > 0 && IsSpace(s[|s| - 1]) {
      TrimEndShape(s[..|s| - 1]);
      var t := TrimEnd(s);
      assert s[|t|..] == s[..|s| - 1][|t|..] + [s[|s| - 1]];
    }
  }

  /** `s.trim()`. */
  function Trim(s: string): string {
    TrimEnd(TrimStart(s))
  }

  /** Whitespace only trims away completely. */
  lemma {:induction false} AllSpaceTrimsToEmpty(s: string)
    requires AllSpace(s)
    ensures TrimStart(s) == [] && Trim(s) == []
  {
    if |s| > 0 {
      AllSpaceTrimsToEmpty(s[1..]);
    }
  }

  /** Whitespace put in front of a string is all that `trimStart` removes
      from it. */
  lemma {:induction false} TrimStartPastSpace(w: string, s: string)
    requires AllSpace(w)
    ensures TrimStart(w + s) == TrimStart(s)
  {
    if |w| > 0 {
      assert (w + s)[0] == w[0];
      assert (w + s)[1..] == w[1..] + s;
      TrimStartPastSpace(w[1..], s);
    } else {
      assert w + s == s;
    }
  }

  /** A string trims to the empty string exactly when it is all whitespace. */
  lemma TrimEmptyIffAllSpace(s: string)
    ensures Trim(s) == [] <==> AllSpace(s)
  {
    var t := TrimStart(s);
    var k := |s| - |t|;
    if AllSpace(s) {
      AllSpaceTrimsToEmpty(s);
    }
    if Trim(s) == [] {
      TrimStartShape(s);
      TrimEndShape(t);
      assert AllSpace(t[|TrimEnd(t)|..]);
      assert t == [];
      forall i | 0 <= i < |s|
        ensures IsSpace(s[i])
      {
        assert s[i] == s[..k][i];
      }
    }
  }

  // ---------------------------------------------------------------------------
  // Decimal digits

  predicate IsDigit(c: char) {
    '0' <= c <= '9'
  }

  predicate AllDigits(s: string) {
    forall i :: 0 <= i < |s| ==> IsDigit(s[i])
  }

  function DigitValue(c: char): (d: nat)
    requires IsDigit(c)
    ensures d < 10
  {
    c as int - '0' as int
  }

  function DigitChar(d: nat): (c: char)
    requires d < 10
    ensures IsDigit(c) && DigitValue(c) == d
  {
    ('0' as int + d) as char
  }

  /** The number a run of decimal digits denotes, most significant digit first. */
  function DigitsValue(s: string): nat
    requires AllDigits(s)
  {
    if s == [] then 0 else DigitsValue(s[..|s| - 1]) * 10 + DigitValue(s[|s| - 1])
  }

  /** The shortest decimal rendering of `n`, as `${n}` produces for an integer
      status code: non-empty, digits only, no leading zero, and it denotes `n`. */
  function NatToDecimal(n: nat): (s: string)
    ensures |s| > 0 && AllDigits(s)
    ensures DigitsValue(s) == n
    ensures s[0] != '0' || n == 0
  {
    if n < 10 then [DigitChar(n)]
    else
      var prefix := NatToDecimal(n / 10);
      var s := prefix + [DigitChar(n % 10)];
      assert s[..|s| - 1] == prefix;
      s
  }
}

=== FILE: json.dfy ===
/** Parsed JSON values as the services receive them from `response.json()`,
    with JavaScript truthiness and property reads. */
module JsonData {
  import opened Wrappers

  datatype Json =
    | JNull
    | JBool(b: bool)
    | JNumber(n: real)
    | JString(s: string)
    | JArray(items: seq<Json>)
    | JObject(fields: map<string, Json>)

  /** JavaScript truthiness of a JSON value (JSON has no NaN or undefined). */
  predicate Truthy(j: Json) {
    match j
    case JNull => false
    case JBool(b) => b
    case JNumber(n) => n != 0.0
    case JString(s) => s != ""
    case _ => true
  }

  /** `j[key]`: `Failure(key)` when `j` is `null` (a TypeError naming the key),
      `None` when the property is undefined, else its value. Only an object's
      own fields are properties here. */
  function Property(j: Json, key: string): (r: Result<Option<Json>, string>)
    ensures r.Failure? <==> j.JNull?
    ensures r.Success? && r.value.Some? <==> j.JObject? && key in j.fields
    ensures r.Success? && r.value.Some? ==> r.value.value == j.fields[key]
  {
    match j
    case JNull => Failure(key)
    case JObject(fields) => Success(if key in fields then Some(fields[key]) else None)
    case _ => Success(None)
  }

  /** A property read that yields a truthy value (undefined is falsy). */
  predicate TruthyField(a: Option<Json>) {
    a.Some? && Truthy(a.value)
  }

  /** JavaScript `a || b` where `a` may be undefined. */
  function Or(a: Option<Json>, b: Json): Json {
    if TruthyField(a) then a.value else b
  }
}

=== FILE: performance_service.dfy ===
/** The performance service of the mobile client: loading and saving an
    athlete's basic performance record through the request layer, validating
    and averaging trial values typed by the user, sample history, and the
    catalogue of performance measurements. */
module PerformanceService {
  import opened Wrappers
  import opened JsText
  import opened JsNumber
  import opened JsonData
  import opened Http
  import ApiService

  /** Endpoint of the basic-performance CRUD route. */
  const PerformanceRoute: string := "basic-performance-crud"

  // ---------------------------------------------------------------------------
  // Loading and saving

  /** The call `getPerformanceMeasurements(athleteId)` makes. */
  function MeasurementsCall(athleteId: string): ApiService.Call {
    ApiService.Get(PerformanceRoute + "/" + athleteId)
  }

  /** The call `savePerformanceMeasurements(data, isUpdate = false)` makes. */
  function SaveCall(data: Json, isUpdate: bool := false): ApiService.Call {
    if isUpdate then ApiService.Put(PerformanceRoute, data) else ApiService.Post(PerformanceRoute, data)
  }

  /** `savePerformanceMeasurements(data, isUpdate)`: errors are rethrown as they
      are, so its outcome is that of the request. */
  function Save(data: Json, isUpdate: bool, env: ApiService.Env): (o: ApiService.Outcome)
    ensures 1 <= |o.calls| && o.calls[0].verb == Some(if isUpdate then PUT else POST) && o.calls[0].body == Some(data)
  {
    ApiService.Send(SaveCall(data, isUpdate), env)
  }

  /** `getPerformanceMeasurements(athleteId)`. */
  function Measurements(athleteId: string, env: ApiService.Env): (o: ApiService.Outcome)
    ensures 1 <= |o.calls| && o.calls[0].verb == Some(GET) && o.calls[0].body == None
  {
    ApiService.Send(MeasurementsCall(athleteId), env)
  }

  // ---------------------------------------------------------------------------
  // isValidNumber

  /** A primitive JavaScript value, as `isValidNumber` may receive one. */
  datatype JsValue = Undefined | Null | Bool(b: bool) | Number(n: Num) | Str(s: string)

  /** `parseFloat(value)`: the value is first converted to a string; a number's
      string form reads back as the same number. */
  function ParseFloatOf(v: JsValue): Num {
    match v
    case Number(n) => n
    case Str(s) => ParseFloat(s)
    case _ => NaN   // "undefined", "null", "true", "false"
  }

  /** The conversion the global `isFinite(value)` applies first. */
  function ToNumberOf(v: JsValue): Num {
    match v
    case Undefined => NaN
    case Null => Finite(0.0)
    case Bool(b) => Finite(if b then 1.0 else 0.0)
    case Number(n) => n
    case Str(s) => ToNumber(s)
  }

  /** `isValidNumber(value)`. */
  predicate IsValidNumber(v: JsValue)
    ensures IsValidNumber(v) ==> v.Number? || v.Str?
  {
    v != Null && v != Undefined && ParseFloatOf(v) != NaN && ToNumberOf(v).Finite?
  }

  // ---------------------------------------------------------------------------
  // calculateAverage

  /** The filter of `calculateAverage`: truthy, not blank, and `parseFloat`
      finds a number. */
  predicate Kept(entry: string) {
    entry != "" && Trim(entry) != "" && ParseFloat(entry) != NaN
  }

  /** The entries that pass the filter, parsed, in order. */
  function KeptValues(entries: seq<string>): (xs: seq<Num>)
    ensures |xs| <= |entries|
  {
    if entries == [] then []
    else
      var rest := KeptValues(entries[1..]);
      if Kept(entries[0]) then [ParseFloat(entries[0])] + rest else rest
  }

  /** No value survives the filter exactly when no entry is kept. */
  lemma {:induction false} KeptValuesEmpty(entries: seq<string>)
    ensures |KeptValues(entries)| == 0 <==> forall i :: 0 <= i < |entries| ==> !Kept(entries[i])
  {
    if entries != [] {
      KeptValuesEmpty(entries[1..]);
      assert forall i :: 1 <= i < |entries| ==> entries[i] == entries[1..][i - 1];
    }
  }

  /** `xs.reduce((acc, val) => acc + val, 0)`. */
  function Sum(xs: seq<Num>): Num {
    if xs == [] then Finite(0.0) else Add(Sum(xs[..|xs| - 1]), xs[|xs| - 1])
  }

  /** Sum divided by count, `None` (null) for no values. */
  function Average(xs: seq<Num>): (r: Option<Num>)
    ensures r.None? <==> |xs| == 0
  {
    if |xs| == 0 then None else Some(DivCount(Sum(xs), |xs|))
  }

  /** Every value is a finite number. */
  predicate AllFinite(xs: seq<Num>) {
    forall i :: 0 <= i < |xs| ==> xs[i].Finite?
  }

  /** The exact real sum of finite values, folded from the right: a reference
      independent of the left fold `reduce` performs. */
  function RealSum(xs: seq<Num>): real
    requires AllFinite(xs)
  {
    if xs == [] then 0.0 else xs[0].r + RealSum(xs[1..])
  }

  /** The right-fold sum also peels off the last value. */
  lemma {:induction false} RealSumSnoc(xs: seq<Num>)
    requires AllFinite(xs) && |xs| > 0
    ensures RealSum(xs) == RealSum(xs[..|xs| - 1]) + xs[|xs| - 1].r
  {
    if |xs| == 1 {
      assert xs[1..] == [] && xs[..0] == [];
    } else {
      assert xs[1..][..|xs| - 2] == xs[..|xs| - 1][1..];
      RealSumSnoc(xs[1..]);
    }
  }

  /** Over finite values the left fold of `reduce` is finite and equals the
      exact sum. */
  lemma {:induction false} SumIsRealSum(xs: seq<Num>)
    requires AllFinite(xs)
    ensures Sum(xs) == Finite(RealSum(xs))
  {
    if xs != [] {
      SumIsRealSum(xs[..|xs| - 1]);
      RealSumSnoc(xs);
    }
  }

  /** For finite values the average is their mean: the exact sum divided by
      the count, so that times the count it gives back the sum. */
  lemma AverageIsMean(xs: seq<Num>)
    requires |xs| > 0 && AllFinite(xs)
    ensures Average(xs).Some? && Average(xs).value.Finite?
    ensures Average(xs).value.r * |xs| as real == RealSum(xs)
    ensures Average(xs) == Some(Finite(RealSum(xs) / |xs| as real))
  {
    SumIsRealSum(xs);
  }

  /** `calculateAverage(values)`: the average of the kept entries; `None`
      (null) exactly when no entry is kept. */
  function CalculateAverage(entries: seq<string>): (r: Option<Num>)
    ensures r.None? <==> forall i :: 0 <= i < |entries| ==> !Kept(entries[i])
  {
    KeptValuesEmpty(entries);
    Average(KeptValues(entries))
  }

  // ---------------------------------------------------------------------------
  // getPerformanceHistory

  /** One dated record of trial results, keyed by measurement. */
  datatype Sample = Sample(date: string, values: map<string, real>)

  datatype History = History(athleteId: string, measurements: seq<Sample>)

  /** `getPerformanceHistory(athleteId)`: fixed sample data for any athlete. */
  function PerformanceHistory(athleteId: string): (h: History)
    ensures h.athleteId == athleteId && |h.measurements| == 4
  {
    History(athleteId, [
      Sample("2023-01-15", map["time_30m" := 4.8, "time_100m" := 13.1, "standing_long_jump" := 215.0,
                               "vertical_jump" := 45.0, "beep_test" := 8.5]),
      Sample("2023-02-20", map["time_30m" := 4.7, "time_100m" := 12.9, "standing_long_jump" := 220.0,
                               "vertical_jump" := 47.0, "beep_test" := 9.1]),
      Sample("2023-03-25", map["time_30m" := 4.5, "time_100m" := 12.7, "standing_long_jump" := 225.0,
                               "vertical_jump" := 48.0, "beep_test" := 9.4]),
      Sample("2023-04-30", map["time_30m" := 4.3, "time_100m" := 12.5, "standing_long_jump" := 228.0,
                               "vertical_jump" := 51.0, "beep_test" := 9.8])
    ])
  }

  // ---------------------------------------------------------------------------
  // getPerformanceMeasurementsList

  datatype Measurement = Measurement(name: string, key: string, unit: string, icon: string, description: string)

  /** The list `getPerformanceMeasurementsList()` returns. */
  const MeasurementCatalogue: seq<Measurement> :=
    [
      Measurement("Time for 30m", "time_30m", "seconds", "stopwatch",
                  "The time taken to sprint 30 meters from a standing start"),
      Measurement("Time for 100m", "time_100m", "seconds", "timer",
                  "The time taken to sprint 100 meters from a standing start"),
      Measurement("Standing Long Jump", "standing_long_jump", "cm", "resize",
                  "Distance covered in a standing long jump"),
      Measurement("Vertical Jump", "vertical_jump", "cm", "trending-up",
                  "Height reached in a vertical jump from standing position"),
      Measurement("Beep Test", "beep_test", "level", "pulse",
                  "Multi-stage fitness test (MSFT) level achieved"),
      Measurement("Sit and Reach", "sit_and_reach", "cm", "body",
                  "Flexibility test measuring hamstring and lower back flexibility"),
      Measurement("Reaction Time", "reaction_time", "ms", "flash",
                  "Time taken to react to a visual or auditory stimulus"),
      Measurement("Grip Strength", "grip_strength", "kg", "hand-right",
                  "Maximum isometric strength of the hand and forearm muscles")
    ]

  // ---------------------------------------------------------------------------
  // Properties

  /** Saving issues PUT for an update and POST otherwise, authenticated, with
      the data unchanged; an update flag left out means a create. */
  lemma SaveDispatch(data: Json, isUpdate: bool)
    ensures var c := SaveCall(data, isUpdate);
      && c.options.verb == Some(if isUpdate then PUT else POST)
      && c.options.body == Some(data) && c.options.headers == map[] && c.requiresAuth
    ensures SaveCall(data) == SaveCall(data, false)
  {
  }

  /** Both kinds of save go to the same basic-performance route. */
  lemma SaveUrl(data: Json, isUpdate: bool)
    ensures ApiService.Url(SaveCall(data, isUpdate).endpoint) == BackendUrl + "/basic-performance-crud"
  {
    assert SaveCall(data, isUpdate).endpoint == PerformanceRoute;
    assert !StartsWith(PerformanceRoute, "/") by {
      assert PerformanceRoute[0] == 'b';
    }
    ApiService.UrlNormalisation(PerformanceRoute);
  }

  /** Loading reads the athlete's record with an authenticated GET. */
  lemma MeasurementsCallShape(athleteId: string)
    ensures var c := MeasurementsCall(athleteId);
      && c.options.verb == Some(GET) && c.options.body == None && c.requiresAuth
  {
  }

  /** The record is read from the basic-performance route under the
      athlete's id. */
  lemma MeasurementsUrl(athleteId: string)
    ensures ApiService.Url(MeasurementsCall(athleteId).endpoint) == BackendUrl + "/basic-performance-crud/" + athleteId
  {
    var e := PerformanceRoute + "/" + athleteId;
    assert MeasurementsCall(athleteId).endpoint == e;
    assert !StartsWith(e, "/") by {
      assert e[0] == 'b';
    }
    ApiService.UrlNormalisation(e);
  }

  /** A save reaches the basic-performance route, and its failures are those
      of the request itself: a network failure or `API error`. */
  lemma SaveOutcome(data: Json, isUpdate: bool, env: ApiService.Env)
    ensures var o := Save(data, isUpdate, env);
      && o.calls[0].url == BackendUrl + "/basic-performance-crud"
      && (o.result.Failure? ==> o.result.error.NetworkFailure? || o.result.error.Message?)
      && (env.first.Rejected? ==> o.result == Failure(NetworkFailure(env.first.reason)))
      && (env.first.Resolved? && env.first.response.status != 401 ==>
            o.result == ApiService.HandleResponse(env.first.response))
      && (env.first.Resolved? && env.first.response.status == 401 ==>
            o.result == (if ApiService.RefreshToken(env.storage, env.refreshReply).token.Some?
                         then ApiService.Settle(env.retry)
                         else Failure(Message(ApiService.ApiErrorText(401)))))
  {
    SaveUrl(data, isUpdate);
    ApiService.FailuresAreClassified(SaveCall(data, isUpdate), env);
  }

  /** Loading reaches the athlete's record, and its failures are those of the
      request itself. */
  lemma MeasurementsOutcome(athleteId: string, env: ApiService.Env)
    ensures var o := Measurements(athleteId, env);
      && o.calls[0].url == BackendUrl + "/basic-performance-crud/" + athleteId
      && (o.result.Failure? ==> o.result.error.NetworkFailure? || o.result.error.Message?)
      && (env.first.Rejected? ==> o.result == Failure(NetworkFailure(env.first.reason)))
      && (env.first.Resolved? && env.first.response.status != 401 ==>
            o.result == ApiService.HandleResponse(env.first.response))
      && (env.first.Resolved? && env.first.response.status == 401 ==>
            o.result == (if ApiService.RefreshToken(env.storage, env.refreshReply).token.Some?
                         then ApiService.Settle(env.retry)
                         else Failure(Message(ApiService.ApiErrorText(401)))))
  {
    MeasurementsUrl(athleteId);
    ApiService.FailuresAreClassified(MeasurementsCall(athleteId), env);
  }

  /** `isValidNumber` holds of exactly the finite numbers and the strings that
      both `parseFloat` and `Number()` accept as finite; never of null or
      undefined. */
  lemma IsValidNumberMeaning(v: JsValue)
    ensures v == Null || v == Undefined ==> !IsValidNumber(v)
    ensures IsValidNumber(v) <==>
      (v.Number? && v.n.Finite?) || (v.Str? && ParseFloat(v.s) != NaN && ToNumber(v.s).Finite?)
    ensures IsValidNumber(v) ==> ParseFloatOf(v).Finite?
  {
    if v.Str? {
      ParseFloatFiniteWhenNumberFinite(v.s);
    }
  }

  /** The blank-entry test of `calculateAverage` is subsumed by its parse
      test: an entry is kept exactly when `parseFloat` finds a number in it. */
  lemma KeptIffParses(entry: string)
    ensures Kept(entry) <==> ParseFloat(entry) != NaN
  {
    TrimEmptyIffAllSpace(entry);
    if AllSpace(entry) {
      ParseFloatOfSpace(entry);
    }
  }

  /** Every string `isValidNumber` accepts is kept by `calculateAverage`. */
  lemma ValidEntriesAreKept(entry: string)
    requires IsValidNumber(Str(entry))
    ensures Kept(entry)
  {
    KeptIffParses(entry);
  }

  /** `12abc` starts with the two-character literal `12`. */
  lemma ScanTwelve()
    ensures ScanDecimal("12abc") == Some(Scan(Finite(12.0), 2))
  {
    var s := "12abc";
    assert LeadingDigits(s) == 2 by {
      assert LeadingDigits(s[2..]) == 0;
      assert LeadingDigits(s[1..]) == 1;
    }
    assert s[..2] == "12";
    assert DigitsValue("12") == 12 by {
      assert "12"[..1] == "1";
    }
    assert ScanExponent(s[2..]) == (0, 0);
  }

  /** `parseFloat("12abc")` reads the leading `12`. */
  lemma TwelveParseFloat()
    ensures ParseFloat("12abc") == Finite(12.0)
  {
    ScanTwelve();
    assert TrimStart("12abc") == "12abc";
  }

  /** `Number("12abc")` is NaN: the literal does not span the string. */
  lemma TwelveToNumber()
    ensures ToNumber("12abc") == NaN
  {
    var s := "12abc";
    ScanTwelve();
    assert Trim(s) == s;
    assert RadixPrefix(s).None?;
  }

  /** The converse fails: `calculateAverage` keeps `12abc` as 12, which
      `isValidNumber` rejects. */
  lemma TrailingTextKept()
    ensures ParseFloat("12abc") == Finite(12.0)
    ensures Kept("12abc") && !IsValidNumber(Str("12abc"))
  {
    TwelveParseFloat();
    TwelveToNumber();
    KeptIffParses("12abc");
  }

  /** `Number("0x10")` reads the hexadecimal literal as 16. */
  lemma HexToNumber()
    ensures ToNumber("0x10") == Finite(16.0)
  {
    var s := "0x10";
    assert Trim(s) == s;
    assert RadixPrefix(s) == Some(16);
    assert s[2..] == "10";
    assert RadixValue("10", 16) == Some(16) by {
      assert "10"[..1] == "1";
    }
  }

  /** `parseFloat("0x10")` stops after the leading `0`. */
  lemma HexParseFloat()
    ensures ParseFloat("0x10") == Finite(0.0)
  {
    var s := "0x10";
    assert TrimStart(s) == s;
    assert LeadingDigits(s) == 1 by {
      assert LeadingDigits(s[1..]) == 0;
    }
    assert s[..1] == "0";
    assert ScanExponent(s[1..]) == (0, 0);
  }

  /** A hexadecimal literal passes `isValidNumber`, since `Number()` reads
      `0x10` as 16, while `parseFloat` reads it as 0. */
  lemma HexValidButParsedAsZero()
    ensures IsValidNumber(Str("0x10")) && ParseFloat("0x10") == Finite(0.0)
    ensures ToNumber("0x10") == Finite(16.0)
  {
    HexToNumber();
    HexParseFloat();
  }

  /** An entry kept by the filter contributes its `parseFloat` value: the
      average of one kept entry is that value. */
  lemma AverageOfKeptEntry(entry: string)
    requires Kept(entry)
    ensures CalculateAverage([entry]) == Some(ParseFloat(entry))
  {
    assert KeptValues([entry]) == [ParseFloat(entry)] by {
      assert [entry][1..] == [];
    }
    AverageOfOne(ParseFloat(entry));
  }

  /** So `calculateAverage` reads the entry `0x10` as 0. */
  lemma HexAveragedAsZero()
    ensures CalculateAverage(["0x10"]) == Some(Finite(0.0))
  {
    HexParseFloat();
    KeptIffParses("0x10");
    AverageOfKeptEntry("0x10");
  }

  /** The kept values are parsed numbers, never NaN. */
  lemma {:induction false} KeptValuesAreNumbers(entries: seq<string>)
    ensures forall x :: x in KeptValues(entries) ==> x != NaN
  {
    if entries != [] {
      var rest := KeptValues(entries[1..]);
      KeptValuesAreNumbers(entries[1..]);
      if Kept(entries[0]) {
        assert KeptValues(entries) == [ParseFloat(entries[0])] + rest;
      } else {
        assert KeptValues(entries) == rest;
      }
    }
  }

  /** The filter of `calculateAverage` works entry by entry: it distributes
      over concatenation. */
  lemma {:induction false} KeptValuesAppend(a: seq<string>, b: seq<string>)
    ensures KeptValues(a + b) == KeptValues(a) + KeptValues(b)
  {
    if a == [] {
      assert a + b == b;
    } else {
      assert (a + b)[0] == a[0];
      assert (a + b)[1..] == a[1..] + b;
      KeptValuesAppend(a[1..], b);
    }
  }

  /** When some entry is kept and every kept value is finite,
      `calculateAverage` is the mean of the kept values: their exact sum
      divided by their count. */
  lemma CalculateAverageIsMean(entries: seq<string>)
    requires KeptValues(entries) != [] && AllFinite(KeptValues(entries))
    ensures CalculateAverage(entries) == Some(Finite(RealSum(KeptValues(entries)) / |KeptValues(entries)| as real))
  {
    var xs := KeptValues(entries);
    assert CalculateAverage(entries) == Average(xs);
    AverageIsMean(xs);
  }

  /** An entry the filter drops (blank, or not starting with a number) has no
      effect on the average, wherever it stands. */
  lemma DroppedEntryIgnored(front: seq<string>, entry: string, back: seq<string>)
    requires !Kept(entry)
    ensures CalculateAverage(front + [entry] + back) == CalculateAverage(front + back)
  {
    KeptValuesAppend(front + [entry], back);
    KeptValuesAppend(front, [entry]);
    KeptValuesAppend(front, back);
    assert KeptValues([entry]) == [] by {
      assert [entry][1..] == [];
    }
    assert KeptValues(front + [entry] + back) == KeptValues(front + back);
  }

  /** One entry holding the decimal form of `n` averages to `n`. */
  lemma AverageOfDecimal(n: nat)
    ensures CalculateAverage([NatToDecimal(n)]) == Some(Finite(n as real))
  {
    var e := NatToDecimal(n);
    ParseFloatOfDecimal(n);
    KeptIffParses(e);
    AverageOfKeptEntry(e);
  }

  /** A single value is returned unchanged. */
  lemma AverageOfOne(x: Num)
    ensures Average([x]) == Some(x)
  {
    assert [x][..0] == [];
    assert Sum([x]) == Add(Finite(0.0), x);
    match x
    case Finite(v) => assert v / 1 as real == v;
    case _ =>
  }

  /** All values finite: the sum is finite and bounded by count times any
      lower and upper bound of the values. */
  lemma {:induction false} SumBounds(xs: seq<Num>, lo: real, hi: real)
    requires forall i :: 0 <= i < |xs| ==> xs[i].Finite? && lo <= xs[i].r <= hi
    ensures Sum(xs).Finite?
    ensures |xs| as real * lo <= Sum(xs).r <= |xs| as real * hi
  {
    if xs != [] {
      var init := xs[..|xs| - 1];
      SumBounds(init, lo, hi);
      var m := |init| as real;
      assert Sum(xs).r == Sum(init).r + xs[|xs| - 1].r;
      assert |xs| as real * lo == m * lo + lo;
      assert |xs| as real * hi == m * hi + hi;
    }
  }

  /** A total bounded by `n * lo` and `n * hi` has its quotient by `n` between
      `lo` and `hi`. */
  lemma QuotientBetween(total: real, n: real, lo: real, hi: real)
    requires n > 0.0 && n * lo <= total <= n * hi
    ensures lo <= total / n <= hi
  {
    var q := total / n;
    assert (q - lo) * n == total - n * lo;
    assert (hi - q) * n == n * hi - total;
  }

  /** The sum of finite values divided by their count lies within any bounds
      that hold of every value. */
  lemma MeanWithinBounds(xs: seq<Num>, lo: real, hi: real)
    requires |xs| > 0 && forall i :: 0 <= i < |xs| ==> xs[i].Finite? && lo <= xs[i].r <= hi
    ensures Sum(xs).Finite? && lo <= Sum(xs).r / |xs| as real <= hi
  {
    SumBounds(xs, lo, hi);
    QuotientBetween(Sum(xs).r, |xs| as real, lo, hi);
  }

  /** The average of finite values is finite and lies within any bounds
      that hold of every value; in particular between the least and the
      greatest of them. */
  lemma AverageWithinBounds(xs: seq<Num>, lo: real, hi: real)
    requires |xs| > 0 && forall i :: 0 <= i < |xs| ==> xs[i].Finite? && lo <= xs[i].r <= hi
    ensures Average(xs).Some? && Average(xs).value.Finite?
    ensures lo <= Average(xs).value.r <= hi
  {
    MeanWithinBounds(xs, lo, hi);
  }

  /** JavaScript `a < b` on strings, as code-point lexicographic order. It
      agrees with the code-unit order of JavaScript on the ASCII dates
      compared here; the two differ only above the Basic Multilingual Plane. */
  predicate LexLess(a: string, b: string) {
    if a == [] then b != []
    else if b == [] then false
    else if a[0] == b[0] then LexLess(a[1..], b[1..])
    else a[0] < b[0]
  }

  /** Strings that agree before index `k` and differ there are ordered by
      their characters at `k`. */
  lemma {:induction false} LexLessAt(a: string, b: string, k: nat)
    requires k < |a| && k < |b| && a[k] < b[k]
    requires forall j :: 0 <= j < k ==> a[j] == b[j]
    ensures LexLess(a, b)
  {
    if k > 0 {
      assert a[0] == b[0];
      LexLessAt(a[1..], b[1..], k - 1);
    }
  }

  /** The sample history echoes the athlete id and holds four samples in
      strictly ascending date order. */
  lemma HistoryDatesAscending(athleteId: string)
    ensures var h := PerformanceHistory(athleteId);
      && h.athleteId == athleteId && |h.measurements| == 4
      && forall i :: 0 <= i < 3 ==> LexLess(h.measurements[i].date, h.measurements[i + 1].date)
  {
    var m := PerformanceHistory(athleteId).measurements;
    forall i | 0 <= i < 3
      ensures LexLess(m[i].date, m[i + 1].date)
    {
      LexLessAt(m[i].date, m[i + 1].date, 6);
    }
  }

  /** Every sample records exactly the first five measurements of the
      catalogue: the sprint times, the two jumps and the beep test. */
  lemma HistoryKeysInCatalogue(athleteId: string)
    ensures var h := PerformanceHistory(athleteId);
      var l := MeasurementCatalogue;
      forall i :: 0 <= i < |h.measurements| ==>
        h.measurements[i].values.Keys == {l[0].key, l[1].key, l[2].key, l[3].key, l[4].key}
  {
    var l := MeasurementCatalogue;
    assert l[0].key == "time_30m" && l[1].key == "time_100m" && l[2].key == "standing_long_jump";
    assert l[3].key == "vertical_jump" && l[4].key == "beep_test";
  }

  /** The catalogue lists eight measurements with pairwise-distinct keys. */
  lemma CatalogueKeysDistinct()
    ensures |MeasurementCatalogue| == 8
    ensures forall i, j :: 0 <= i < j < 8 ==> MeasurementCatalogue[i].key != MeasurementCatalogue[j].key
  {
  }
}

=== FILE: stats_service.dfy ===
/** The statistics service of the mobile client: which backend route computes
    each athlete statistic, the request it sends, how the reply is reshaped,
    and the static catalogue of statistics with their units. */
module StatsService {
  import opened Wrappers
  import opened JsText
  import opened JsonData
  import opened Http

  // ---------------------------------------------------------------------------
  // Endpoint dispatch of generateStat

  /** Path segment of the dedicated backend route for a stat type, if it has one. */
  function Segment(statType: string): (r: Option<string>)
    ensures r.Some? ==> '/' !in r.value
  {
    match statType
    case "bmi" => Some("bmi")
    case "somatotype" => Some("somato")
    case "vo2max" => Some("vo2max")
    case "power_to_weight_ratio" => Some("ptw")
    case "speed_index" => Some("speed")
    case "fatigue_index" => Some("sfi")
    case "grip_index" => Some("grip")
    case "flexibility_index" => Some("flexibility")
    case "jumping_index" => Some("jumpingpower")
    case "neuromuscular_indexes" => Some("nme")
    case "power_index" => Some("power")
    case _ => None
  }

  /** The stat types that have a dedicated route, in the order of the switch. */
  const RoutedTypes: seq<string> := [
    "bmi", "somatotype", "vo2max", "power_to_weight_ratio", "speed_index", "fatigue_index",
    "grip_index", "flexibility_index", "jumping_index", "neuromuscular_indexes", "power_index"
  ]

  /** Path of the fallback route for stat types without a dedicated one. */
  const GenericPath: string := "/athlete-stat-crud/generate"

  /** The URL `generateStat` sends its request to. */
  function Endpoint(athleteId: string, statType: string): (url: string)
    ensures |url| > |BackendUrl| && url[..|BackendUrl| + 1] == BackendUrl + "/"
    ensures Segment(statType).Some? ==> |athleteId| < |url| && url[|url| - |athleteId|..] == athleteId
  {
    match Segment(statType)
    case Some(segment) => BackendUrl + "/" + segment + "/" + athleteId
    case None => BackendUrl + GenericPath
  }

  /** POST for the `generic` stat type, PUT for every other one. */
  function StatVerb(statType: string): (verb: Method)
    ensures verb == POST || verb == PUT
    ensures verb == POST ==> Segment(statType).None?
  {
    if statType == "generic" then POST else PUT
  }

  /** The JSON body every generate request carries. */
  function StatBody(athleteId: string, statType: string): Json {
    JObject(map["athlete_id" := JString(athleteId), "stat_type" := JString(statType)])
  }

  /** The request `generateStat` hands to `fetch`. */
  function StatRequest(athleteId: string, statType: string): (req: Request)
    ensures req.verb.Some? && req.body.Some?
    ensures req.headers == map["Content-Type" := JsonContentType]
    ensures req.body.value.JObject? && req.body.value.fields.Keys == {"athlete_id", "stat_type"}
    ensures req.body.value.fields["athlete_id"] == JString(athleteId)
    ensures req.body.value.fields["stat_type"] == JString(statType)
  {
    Request(Endpoint(athleteId, statType), Some(StatVerb(statType)),
            map["Content-Type" := JsonContentType], Some(StatBody(athleteId, statType)))
  }

  // ---------------------------------------------------------------------------
  // Reply shaping of generateStat

  /** `result[key]` for a result that is not null. */
  function Field(result: Json, key: string): Option<Json>
    requires !result.JNull?
  {
    Property(result, key).value
  }

  /** `{[statType]: result.value || result.data || result[statType] || result}`;
      reading `.value` of a null result throws. */
  function ShapeResult(statType: string, result: Json): (r: Result<map<string, Json>, Error>)
    ensures r.Failure? <==> result.JNull?
    ensures r.Failure? ==> r.error == NullRead("value")
    ensures r.Success? ==> r.value.Keys == {statType}
  {
    if result.JNull? then Failure(NullRead("value"))
    else
      var v := Or(Field(result, "value"), Or(Field(result, "data"), Or(Field(result, statType), result)));
      Success(map[statType := v])
  }

  /** `generateStat(athleteId, statType)` given the outcome of its `fetch`: the
      request is `StatRequest(athleteId, statType)`, and the athlete id plays
      no further part in what the reply resolves to. */
  function GenerateStat(statType: string, reply: FetchOutcome): (r: Result<map<string, Json>, Error>)
    ensures reply.Rejected? ==> r == Failure(NetworkFailure(reply.reason))
    ensures reply.Resolved? && !reply.response.Ok() ==>
              r == Failure(Message("Failed to generate stat (" + NatToDecimal(reply.response.status) + ")"))
    ensures reply.Resolved? && reply.response.Ok() && reply.response.json.None? ==> r == Failure(BadJson)
    ensures reply.Resolved? && reply.response.Ok() && reply.response.json.Some? ==>
              r == ShapeResult(statType, reply.response.json.value)
    ensures r.Success? ==> reply.Resolved? && reply.response.Ok() && reply.response.json.Some?
  {
    match reply
    case Rejected(reason) => Failure(NetworkFailure(reason))
    case Resolved(response) =>
      if !response.Ok() then
        Failure(Message("Failed to generate stat (" + NatToDecimal(response.status) + ")"))
      else
        match response.json
        case None => Failure(BadJson)
        case Some(result) => ShapeResult(statType, result)
  }

  // ---------------------------------------------------------------------------
  // getAthleteStats

  /** The request `getAthleteStats` hands to `fetch`: no options, so a GET. */
  function AthleteStatsRequest(athleteId: string): (req: Request)
    ensures req.verb.None? && req.body.None? && req.headers == map[]
    ensures |BackendUrl| + |athleteId| < |req.url|
    ensures req.url[..|BackendUrl|] == BackendUrl && req.url[|req.url| - |athleteId|..] == athleteId
    ensures req.url[|BackendUrl|..|req.url| - |athleteId|] == "/athlete-stat-crud/"
  {
    Request(BackendUrl + "/athlete-stat-crud/" + athleteId, None, map[], None)
  }

  /** `getAthleteStats(athleteId)` given the outcome of its `fetch`: the JSON
      reply when ok, `null` on 404, an error naming the status otherwise. */
  function AthleteStats(reply: FetchOutcome): (r: Result<Json, Error>)
    ensures reply.Resolved? && reply.response.status == 404 ==> r == Success(JNull)
    ensures reply.Resolved? && !reply.response.Ok() && reply.response.status != 404 ==>
              r == Failure(Message("Server responded with status " + NatToDecimal(reply.response.status)))
    ensures reply.Rejected? ==> r == Failure(NetworkFailure(reply.reason))
    ensures reply.Resolved? && reply.response.Ok() ==>
              r == (if reply.response.json.Some? then Success(reply.response.json.value) else Failure(BadJson))
    ensures r.Success? && r.value != JNull ==> reply.Resolved? && reply.response.Ok() && reply.response.json == Some(r.value)
  {
    match reply
    case Rejected(reason) => Failure(NetworkFailure(reason))
    case Resolved(response) =>
      if response.Ok() then
        match response.json
        case None => Failure(BadJson)
        case Some(data) => Success(data)
      else if response.status == 404 then Success(JNull)
      else Failure(Message("Server responded with status " + NatToDecimal(response.status)))
  }

  // ---------------------------------------------------------------------------
  // Units and definitions

  /** `getUnitForStat(statId)`. */
  function UnitFor(statId: string): (unit: string)
    ensures unit != "" ==> Segment(statId).Some? && statId != "somatotype"
  {
    match statId
    case "bmi" => "kg/m²"
    case "vo2max" => "ml/kg/min"
    case "power_to_weight_ratio" => "W/kg"
    case "speed_index" => "m/s"
    case "fatigue_index" => "%"
    case "grip_index" => "kg"
    case "flexibility_index" => "cm"
    case "jumping_index" => "cm"
    case _ => ""
  }

  datatype StatDefinition = StatDefinition(id: string, name: string, description: string, icon: string)

  /** The list `getStatDefinitions` returns. */
  const Definitions: seq<StatDefinition> :=
    [
      StatDefinition("somatotype", "Somatotype", "Body type classification (endomorph, mesomorph, ectomorph)", "body"),
      StatDefinition("bmi", "BMI", "Body Mass Index", "calculator"),
      StatDefinition("flexibility_index", "Flexibility Index", "Measure of overall body flexibility", "fitness"),
      StatDefinition("grip_index", "Grip Index", "Measure of hand and forearm strength", "hand-right"),
      StatDefinition("jumping_index", "Jumping Index", "Measure of jumping ability", "trending-up"),
      StatDefinition("neuromuscular_indexes", "Neuromuscular Indexes", "Measurements of neuromuscular coordination and efficiency", "flash"),
      StatDefinition("power_index", "Power Index", "Overall measure of athletic power output", "speedometer"),
      StatDefinition("power_to_weight_ratio", "Power to Weight Ratio", "Power output relative to body weight", "barbell"),
      StatDefinition("fatigue_index", "Fatigue Index", "Measure of resistance to fatigue", "battery-half"),
      StatDefinition("speed_index", "Speed Index", "Overall measure of athletic speed", "stopwatch"),
      StatDefinition("vo2max", "VO2 Max", "Maximum oxygen uptake during exercise", "pulse")
    ]

  /** The ids of a list of definitions, in order. */
  function Ids(defs: seq<StatDefinition>): seq<string> {
    seq(|defs|, i requires 0 <= i < |defs| => defs[i].id)
  }

  /** `defs.find(def => def.id === id)`: the first definition with that id. */
  function Find(defs: seq<StatDefinition>, id: string): (r: Option<StatDefinition>)
    ensures r.None? <==> id !in Ids(defs)
    ensures r.Some? ==> exists i :: 0 <= i < |defs| && defs[i] == r.value && r.value.id == id
                          && forall j :: 0 <= j < i ==> defs[j].id != id
  {
    if defs == [] then None
    else if defs[0].id == id then
      assert Ids(defs)[0] == id;
      Some(defs[0])
    else
      var r := Find(defs[1..], id);
      assert Ids(defs) == [defs[0].id] + Ids(defs[1..]);
      if r.Some? then
        var i :| 0 <= i < |defs[1..]| && defs[1..][i] == r.value && r.value.id == id
                 && forall j :: 0 <= j < i ==> defs[1..][j].id != id;
        assert defs[i + 1] == r.value;
        r
      else r
  }

  /** `getStatDefinitionById(statId)`: the definition with that id, or the
      first definition (somatotype) when there is none. */
  function DefinitionById(statId: string): (d: StatDefinition)
    ensures d in Definitions
    ensures statId in Ids(Definitions) ==> d.id == statId
    ensures statId !in Ids(Definitions) ==> d == Definitions[0] && d.id == "somatotype"
  {
    match Find(Definitions, statId)
    case Some(found) => found
    case None => Definitions[0]
  }

  // ---------------------------------------------------------------------------
  // Properties

  /** Exactly the eleven listed stat types have a dedicated route. */
  lemma RoutedTypesExactly(statType: string)
    ensures Segment(statType).Some? <==> statType in RoutedTypes
  {
  }

  /** The stat type a route segment serves, if it is one of the dedicated
      segments. */
  function SegmentType(segment: string): Option<string> {
    match segment
    case "bmi" => Some("bmi")
    case "somato" => Some("somatotype")
    case "vo2max" => Some("vo2max")
    case "ptw" => Some("power_to_weight_ratio")
    case "speed" => Some("speed_index")
    case "sfi" => Some("fatigue_index")
    case "grip" => Some("grip_index")
    case "flexibility" => Some("flexibility_index")
    case "jumpingpower" => Some("jumping_index")
    case "nme" => Some("neuromuscular_indexes")
    case "power" => Some("power_index")
    case _ => None
  }

  /** The segment of a routed stat type leads back to that type. */
  lemma SegmentRoundTrip(statType: string)
    ensures Segment(statType).Some? ==> SegmentType(Segment(statType).value) == Some(statType)
  {
  }

  /** No two stat types share a route segment. */
  lemma SegmentInjective(t1: string, t2: string)
    requires Segment(t1).Some? && Segment(t1) == Segment(t2)
    ensures t1 == t2
  {
    SegmentRoundTrip(t1);
    SegmentRoundTrip(t2);
  }

  /** Index of the first `/` in `s`, or `|s|` when there is none. */
  function FirstSlash(s: string): (i: nat)
    ensures i <= |s| && '/' !in s[..i]
    ensures i < |s| ==> s[i] == '/'
  {
    if s == [] || s[0] == '/' then 0
    else
      var i := 1 + FirstSlash(s[1..]);
      assert s[..i] == [s[0]] + s[1..][..i - 1];
      i
  }

  /** In `x + "/" + y` with no slash in `x`, the first slash ends `x`. */
  lemma SlashSplit(x: string, y: string)
    requires '/' !in x
    ensures FirstSlash(x + "/" + y) == |x|
  {
    var s := x + "/" + y;
    assert s[|x|] == '/';
    assert s[..|x|] == x;
  }

  /** A dedicated endpoint identifies both the stat type and the athlete:
      distinct (type, athlete) pairs never share a URL. */
  lemma EndpointInjective(a1: string, t1: string, a2: string, t2: string)
    requires Segment(t1).Some? && Segment(t2).Some?
    requires Endpoint(a1, t1) == Endpoint(a2, t2)
    ensures t1 == t2 && a1 == a2
  {
    var p := BackendUrl + "/";
    var g1, g2 := Segment(t1).value, Segment(t2).value;
    var s1, s2 := g1 + "/" + a1, g2 + "/" + a2;
    assert Endpoint(a1, t1) == p + s1;
    assert Endpoint(a2, t2) == p + s2;
    assert s1 == (p + s1)[|p|..];
    assert s2 == (p + s2)[|p|..];
    SlashSplit(g1, a1);
    SlashSplit(g2, a2);
    assert g1 == s1[..|g1|] && a1 == s1[|g1| + 1..];
    assert g2 == s2[..|g2|] && a2 == s2[|g2| + 1..];
    SegmentInjective(t1, t2);
  }

  /** Every other stat type falls back to the generic route, whose URL does
      not depend on the athlete. */
  lemma FallbackEndpoint(a1: string, a2: string, statType: string)
    requires Segment(statType).None?
    ensures Endpoint(a1, statType) == Endpoint(a2, statType) == BackendUrl + GenericPath
  {
  }

  /** A dedicated route's path `segment/athleteId` is never the generic path. */
  lemma RoutedPathNotGeneric(g: string, athleteId: string)
    requires '/' !in g && g != "athlete-stat-crud"
    ensures g + "/" + athleteId != "athlete-stat-crud/generate"
  {
    var s := g + "/" + athleteId;
    var generic := "athlete-stat-crud" + "/" + "generate";
    SlashSplit(g, athleteId);
    SlashSplit("athlete-stat-crud", "generate");
    assert s[..|g|] == g;
    assert generic[..17] == "athlete-stat-crud";
  }

  /** No dedicated endpoint coincides with the generic one. */
  lemma RoutedEndpointNotGeneric(athleteId: string, statType: string)
    requires Segment(statType).Some?
    ensures Endpoint(athleteId, statType) != BackendUrl + GenericPath
  {
    var g := Segment(statType).value;
    var p := BackendUrl + "/";
    var s := g + "/" + athleteId;
    var generic := "athlete-stat-crud/generate";
    assert BackendUrl + GenericPath == p + generic;
    assert Endpoint(athleteId, statType) == p + s;
    RoutedTypesExactly(statType);
    RoutedPathNotGeneric(g, athleteId);
    assert (p + s)[|p|..] == s && (p + generic)[|p|..] == generic;
  }

  /** The verb is POST exactly for `generic` (which itself has no dedicated
      route); every other type, including unknown ones sent to the fallback
      route, is sent with PUT. */
  lemma VerbChoice(athleteId: string, statType: string)
    ensures StatRequest(athleteId, statType).verb == Some(POST) <==> statType == "generic"
    ensures statType != "generic" ==> StatRequest(athleteId, statType).verb == Some(PUT)
    ensures statType == "generic" ==> StatRequest(athleteId, statType).url == BackendUrl + GenericPath
  {
  }

  /** The reshaped value is the first truthy one of `result.value`,
      `result.data` and `result[statType]`, else the whole result. */
  lemma ShapeFirstTruthy(statType: string, result: Json)
    requires !result.JNull?
    ensures var v := ShapeResult(statType, result).value[statType];
      var value, data, own := Field(result, "value"), Field(result, "data"), Field(result, statType);
      && (TruthyField(value) ==> v == value.value)
      && (!TruthyField(value) && TruthyField(data) ==> v == data.value)
      && (!TruthyField(value) && !TruthyField(data) && TruthyField(own) ==> v == own.value)
      && (!TruthyField(value) && !TruthyField(data) && !TruthyField(own) ==> v == result)
  {
  }

  /** For an object or any truthy reply the stored value is truthy, and it is
      always the reply itself or one of the reply's own fields. */
  lemma ShapedValueOrigin(statType: string, result: Json)
    requires !result.JNull?
    ensures var v := ShapeResult(statType, result).value[statType];
      && (Truthy(result) ==> Truthy(v))
      && (v == result || (result.JObject? && v in result.fields.Values))
  {
  }

  /** The stat ids with a unit are exactly the eight listed ones. */
  lemma UnitsExactly(statId: string)
    ensures UnitFor(statId) != "" <==>
      statId in {"bmi", "vo2max", "power_to_weight_ratio", "speed_index", "fatigue_index",
                 "grip_index", "flexibility_index", "jumping_index"}
  {
  }

  /** Only defined statistics have units, and the defined statistics without
      one are somatotype, neuromuscular_indexes and power_index. */
  lemma UnitsCoverDefinitions(statId: string)
    ensures UnitFor(statId) != "" ==> statId in Ids(Definitions)
    ensures statId in Ids(Definitions) && UnitFor(statId) == "" <==>
      statId in {"somatotype", "neuromuscular_indexes", "power_index"}
  {
    DefinitionIdsAreRoutedTypes(statId);
  }

  /** The catalogue has eleven entries with pairwise-distinct ids. */
  lemma DefinitionsDistinct()
    ensures |Definitions| == 11
    ensures forall i, j :: 0 <= i < j < 11 ==> Definitions[i].id != Definitions[j].id
  {
  }

  /** The catalogue's ids are exactly the stat types with a dedicated route. */
  lemma DefinitionIdsAreRoutedTypes(statId: string)
    ensures statId in Ids(Definitions) <==> Segment(statId).Some?
  {
    RoutedTypesExactly(statId);
    var ids := Ids(Definitions);
    assert ids == ["somatotype", "bmi", "flexibility_index", "grip_index", "jumping_index",
                   "neuromuscular_indexes", "power_index", "power_to_weight_ratio", "fatigue_index",
                   "speed_index", "vo2max"];
  }
}

=== FILE: wrappers.dfy ===
/** Optional values and results used across the model: `Option` stands for a
    JavaScript value that may be `null`/`undefined`, `Result` for a call that
    either returns a value or throws. */
module Wrappers {

  datatype Option<+T> = None | Some(value: T)

  datatype Result<+R, +E> = Success(value: R) | Failure(error: E)
}
